=== FILE: README.md ===
# seekfactory front end: session, product store and product forms in Dafny

This project models the deterministic core of the seekfactory marketplace
front end, a React application that talks to a REST backend:

- **The API client** (`ApiClient`, in `api_client.dfy`): a bearer-token slot
  mirrored into local storage, a backend-availability flag that is probed
  once and then cached, the request configuration (default headers, the
  bearer credentials of section 2.1 of RFC 6750, and the spread that lets a
  caller's `headers` replace the merged defaults wholesale), the translation
  of a response into a result or an error, and every domain operation behind
  the availability guard, including the multipart body of `createProduct`.
- **The product store** (`ProductStore`, in `product_store.dfy`): the
  catalogue, the caller's own products and the category list, how each fetch
  replaces a cache from the shapes a response can take, and the refetches
  that follow a confirmed create, update or delete.
- **The product form** (`ProductFormPage`, in `product_form.dfy`): field
  updates, the category/subcategory coupling and option lists, the tag list,
  the ordered submit checks, the trimmed payload with its parsed minimum
  order quantity, and the choice between creating and updating.
- **The create-product page** (`CreateProductPage`, in `create_product.dfy`):
  the tag list, up to five images kept in step with their files, a video of
  at most 5 MiB, the category/subcategory selects, and the signed-in guard in
  front of submitting.
- **The catalogue page** (`ProductsPage`, in `products_page.dfy`): the two
  price sliders that keep the handles at least 1000 apart, and the card image.

Shared pieces live in `Js` (`js.dfy`: `String.prototype.trim`, `parseInt`,
number-to-string with its switch to exponent form, object-literal property
reads including the members inherited from `Object.prototype`,
`Option`/`Result`) and `Tags`
(`tags.dfy`: the tag rules both forms share).

Every state is an immutable datatype and every handler a pure function. The
network is a parameter: the outcome of the health probe (`Probe`) and the
response to each request (`HttpResponse`: a status and a parsed body, or
`Unreachable` when `fetch` or `response.json()` throws). Local storage is a
map from keys to strings. Each store method is one atomic step.

## Model

| member | source | states |
|---|---|---|
| `Js.ParseInt` | src/pages/ProductForm.tsx:222 | `parseInt` of any text gives an integer or NaN, and whitespace-only text gives NaN |
| `Js.IntToString` | src/pages/ProductForm.tsx:111 | `toString` of an integer is non-empty, has no leading whitespace, and starts with `-` exactly for a negative number; its digits are `Js.IntToStringShape` and reading it back is `Js.ParseIntOfIntToString` |
| `Js.IntToStringShape` | src/pages/ProductForm.tsx:111 | below 10^21 a non-negative number is written in decimal digits only, with no leading zero unless it is 0; from 10^21 on the text starts with the number's leading digit followed by `.` or `e` |
| `Js.ParseIntOfIntToString` | src/pages/ProductForm.tsx:222 | parsing the text `toString` gives an integer returns that integer while its magnitude is below 10^21; from 10^21 on the text is in exponent form and only its leading digit, with the sign, comes back |
| `Js.Trim` | src/pages/ProductForm.tsx:216-219 | `trim` returns text with no whitespace at either end and no longer than the input; that it is the input's middle between whitespace is `Js.TrimIsInfix` |
| `Js.TrimOfPadded` | src/pages/ProductForm.tsx:216-221 | `trim` gives back any string with non-whitespace ends, whatever whitespace surrounds it |
| `Js.TrimIgnoresPadding` | src/pages/ProductForm.tsx:216-221 | extra whitespace around any string does not change its `trim` |
| `Js.TrimEmptyIffBlank` | src/pages/ProductForm.tsx:167 | `!s.trim()` holds exactly when `s` is whitespace only |
| `Js.ToText` | src/lib/api.ts:285 | `value.toString()` gives a string itself, a number as its non-empty signed text, and a one-element list as its element (an empty list as the empty text) |
| `Js.NumberTextParsesBack` | src/lib/api.ts:285 | a number appended as text is read back by `parseInt` as the same number while its magnitude is below 10^21 |
| `Js.TrimIdempotent` | src/pages/CreateProduct.tsx:95-96 | trimming a trimmed string changes nothing |
| `Js.TrimIsInfix` | src/pages/CreateProduct.tsx:95-96 | `trim` removes only whitespace, and only at the two ends |
| `Js.Lookup` | src/pages/ProductForm.tsx:372-373 | an own-property read finds a value exactly for the object's keys, and the value stored under that key (keys are distinct in every record read) |
| `Js.LookupOfDistinct` | src/pages/ProductForm.tsx:32-41 | in an object literal with distinct keys, reading an entry's key gives that entry's value |
| `Js.ReadProperty` | src/pages/ProductForm.tsx:372-373 | a property read gives the object's own value for its keys, an `Object.prototype` member (with its `length`) for an inherited name, and nothing otherwise |
| `Tags.AddTag` | src/pages/CreateProduct.tsx:94-99 | an accepted tag is the trimmed text appended after the old tags with the text box cleared; otherwise nothing changes; the list stays duplicate-free and free of blank entries |
| `Tags.RemoveTag` | src/pages/CreateProduct.tsx:101-103 | the result holds exactly the entries different from the removed tag and keeps the list well formed |
| `Tags.RemoveTagAppend` | src/pages/CreateProduct.tsx:101-103 | removal distributes over concatenation, so the survivors keep their relative order |
| `Tags.RemoveAbsentTag` | src/pages/CreateProduct.tsx:101-103 | removing a tag that is not in the list changes nothing |
| `Tags.RemoveTagAt` | src/pages/CreateProduct.tsx:101-103 | in a well-formed list, removing the tag at position k closes the gap at k and keeps the order of the others |
| `Tags.RemoveUndoesAdd` | src/pages/CreateProduct.tsx:94-103 | removing the tag just added restores the previous list |
| `Tags.BlankIsRejected` | src/pages/CreateProduct.tsx:95 | whitespace-only text never becomes a tag |
| `Tags.IsTagIffTrimFixed` | src/pages/CreateProduct.tsx:95-96 | the stored entries are exactly the non-empty strings `trim` leaves alone |
| `Tags.TagsAreNotBlank` | src/pages/CreateProduct.tsx:94-99 | no entry of a well-formed tag list is whitespace only |
| `ApiClient.NewClient` | src/lib/api.ts:78-84 | the constructor reads the token back from storage, leaves availability unknown and removes the two demo keys while keeping every other key |
| `ApiClient.SetToken` | src/lib/api.ts:142-149 | the slot always takes the new token; storage holds it when it is non-empty and loses the key otherwise; no other key changes |
| `ApiClient.CheckAvailability` | src/lib/api.ts:86-110 | a known availability is returned unchanged; otherwise the probe's `ok` is cached, and a failed probe caches false |
| `ApiClient.AvailabilityIsWriteOnce` | src/lib/api.ts:87-89 | a second check returns the first answer and changes nothing, whatever the probe would say |
| `ApiClient.Bearer` | src/lib/api.ts:121 | the credentials are `Bearer`, one space, then the token |
| `ApiClient.DefaultHeaders` | src/lib/api.ts:118-122 | JSON content type, plus `Authorization` exactly when the token is non-empty, and no other header |
| `ApiClient.Request` | src/lib/api.ts:112-140 | `request` sends exactly one request to the endpoint with the caller's body and method (GET by default), with the caller's headers wholesale when given and the default headers otherwise, leaves the client as it is, and returns the body on a 2xx status, throws the server's message (or "An error occurred") on any other status, and a network error when no response arrives |
| `ApiClient.Configure` | src/lib/api.ts:118-125 | a caller's `headers` become the request's headers wholesale; without them the defaults are sent; method defaults to GET |
| `ApiClient.CallerHeadersDropToken` | src/lib/api.ts:118-125 | caller headers without `Authorization` send no token even when the client holds one |
| `ApiClient.ErrorMessage` | src/lib/api.ts:132 | the error text is the server's message when the body carries a non-empty one, and "An error occurred" in every other case |
| `ApiClient.Outcome` | src/lib/api.ts:127-139 | a 2xx response returns its body; any other status throws an HTTP error carrying `ErrorMessage` of the body; an unreachable server throws a network error |
| `ApiClient.Gated` | src/lib/api.ts:153-157 | an unavailable backend throws before any request is built; an available one sends the configured request once |
| `ApiClient.AdoptToken` | src/lib/api.ts:164-166 | the token is set only when the response reports success and carries a token |
| `ApiClient.Login` | src/lib/api.ts:152-169 | posts the credentials to `/auth/login`; with the backend available it sends that one request and returns or throws what `request` makes of the response, otherwise it throws the unavailability error; when the response grants a token the client is the checked client with exactly that token set in memory and under the storage key, otherwise it is the checked client unchanged; the request carries the default headers of the token held |
| `ApiClient.Register` | src/lib/api.ts:171-188 | posts the registration document as the JSON body to `/auth/register`, sending and reporting as login does, with the same token rule and the same default headers |
| `ApiClient.Logout` | src/lib/api.ts:190-214 | on all three paths the token is gone from the slot and from storage; with the backend down nothing is sent and "Logged out locally" is returned |
| `ApiClient.GetCurrentUser` | src/lib/api.ts:216-224 | with the backend available exactly one request, `GET /auth/me`, is sent and its response decides the result; otherwise it throws the unavailability error; the client only records the availability answer; the request carries the default headers of the token held |
| `ApiClient.UpdateProfile` | src/lib/api.ts:226-248 | with the backend available one `PUT /auth/profile` is sent, with the form data as it is or the fields as a JSON body, headers holding only the token read from storage (a missing one sent as "Bearer null") and, for field payloads only, `Content-Type: application/json`; its response decides the result; otherwise it throws the unavailability error |
| `ApiClient.GetProducts` | src/lib/api.ts:253-264 | with the backend available exactly one request, `GET /products` with no filters, is sent and its response decides the result; otherwise it throws the unavailability error; the request carries the default headers of the token held |
| `ApiClient.GetProduct` | src/lib/api.ts:266-274 | with the backend available exactly one request, `GET /products/` followed by the id, is sent and its response decides the result; otherwise it throws the unavailability error; the request carries the default headers of the token held |
| `ApiClient.TextParts` | src/lib/api.ts:283-287 | the multipart body gets only text entries from the fields, never more entries than fields |
| `ApiClient.TextPartsAppend` | src/lib/api.ts:283-287 | building the text entries distributes over the fields, so entries follow field order |
| `ApiClient.TextPartOfPresent` | src/lib/api.ts:284-285 | a field with a value becomes one entry holding its text |
| `ApiClient.TextPartOfAbsent` | src/lib/api.ts:284 | an `undefined` or `null` field is left out |
| `ApiClient.TextPartsOfComplete` | src/lib/api.ts:283-287 | when no field is missing, every field is sent as text, in order |
| `ApiClient.FileParts` | src/lib/api.ts:288-290 | one `images` entry per file, in order |
| `ApiClient.ProductParts` | src/lib/api.ts:283-290 | the multipart body holds the text entries of the fields, in order, followed by one `images` entry per image, in order |
| `ApiClient.CreateProduct` | src/lib/api.ts:276-299 | with the backend available one multipart `POST /products/create-new` is sent, whose only header is the bearer token as printed (null as "null") and whose body is `ProductParts`, and its response decides the result; otherwise it throws the create page's unavailability error |
| `ApiClient.UpdateProduct` | src/lib/api.ts:302-313 | with the backend available exactly one `PUT /products/:id` with the fields as JSON is sent and its response decides the result; otherwise it throws the unavailability error; the request carries the default headers of the token held |
| `ApiClient.DeleteProduct` | src/lib/api.ts:315-325 | with the backend available exactly one request, `DELETE /products/` followed by the id, is sent and its response decides the result; otherwise it throws the unavailability error; the request carries the default headers of the token held |
| `ApiClient.GetMyProducts` | src/lib/api.ts:328-337 | with the backend available exactly one request, `GET /products/my/products?`, is sent and its response decides the result; otherwise it throws the unavailability error; the request carries the default headers of the token held |
| `ApiClient.GetCategories` | src/lib/api.ts:339-347 | with the backend available exactly one request, `GET /products/categories`, is sent and its response decides the result; otherwise it throws the unavailability error; the request carries the default headers of the token held |
| `ApiClient.CheckHealth` | src/lib/api.ts:350-358 | with the backend available exactly one request, `GET /health`, is sent and its response decides the result; otherwise it throws the unavailability error; the request carries the default headers of the token held |
| `ApiClient.UnavailableBackendBlocksEveryOperation` | src/lib/api.ts:153-157 | every operation but logout throws the unavailability error, sends nothing and leaves the session as it was when the backend is down |
| `ApiClient.AvailabilityIsSettled` | src/lib/api.ts:86-110 | after any operation availability is known, and a known availability never changes |
| `ApiClient.OnlyAuthenticationTouchesToken` | src/lib/api.ts:142-214 | only login, register and logout change the token or storage |
| `ApiClient.EveryOperationKeepsTokenMirrored` | src/lib/api.ts:142-149 | every operation keeps the token slot and its stored copy in agreement |
| `ApiClient.AtMostOneRequest` | src/lib/api.ts:112-140 | every operation sends at most one request |
| `ApiClient.AvailableBackendAnswersEveryOperation` | src/lib/api.ts:112-157 | with the backend available every operation, logout included, sends exactly one request and returns or throws what `request` makes of its response |
| `ApiClient.HeldTokenIsSent` | src/lib/api.ts:118-122 | while a non-empty token is held, every request of every operation but `updateProfile` (which reads storage instead) carries `Authorization: Bearer <token>` |
| `ApiClient.AnonymousAfterLogout` | src/lib/api.ts:190-214 | after logout, the operations using the default headers send no `Authorization` header |
| `ApiClient.CreateProductAfterLogoutSendsBearerNull` | src/lib/api.ts:295-297 | after logout, `createProduct` still sends `Authorization: Bearer null` |
| `ProductStore.ProductList` | src/contexts/ProductContext.tsx:42-48 | a bare array is the list; else `data` on success; else `products` on success; otherwise there is no list |
| `ProductStore.FetchProducts` | src/contexts/ProductContext.tsx:35-52 | the catalogue is replaced by the list the response carries, if any, and kept on error; loading ends false; other caches untouched |
| `ProductStore.FetchProductById` | src/contexts/ProductContext.tsx:55-74 | returns the response's `data` exactly when a 2xx envelope carries it, null otherwise and on every error; never throws; changes no cache |
| `ProductStore.FetchMyProducts` | src/contexts/ProductContext.tsx:77-86 | the caller's products take the response's `products` (even when missing) exactly on a successful response; loading ends false |
| `ProductStore.FetchCategories` | src/contexts/ProductContext.tsx:88-95 | with the backend available and a 2xx success response the categories become its `categories`; in every other case they stay as they were; errors are swallowed; loading is untouched |
| `ProductStore.AfterMutation` | src/contexts/ProductContext.tsx:97-120 | the mutation's own request goes first; an unconfirmed mutation leaves the store as it was; a confirmed one refetches the caller's products and then the catalogue: the caller's products become the first refetch's list when it is a 2xx success body and stay otherwise, a throwing first refetch is rethrown with the catalogue untouched and nothing more sent, the catalogue becomes the second refetch's list (or stays when that has none) when both succeed, and a throwing second refetch is rethrown; the result is `Ok` exactly when both refetches return |
| `ProductStore.CreateProduct` | src/contexts/ProductContext.tsx:97-103 | the first request sent is the multipart `POST /products/create-new`, at most three go out in all, and the category list is untouched |
| `ProductStore.UpdateProduct` | src/contexts/ProductContext.tsx:106-112 | the first request sent is `PUT /products/:id` with the fields as JSON, at most three go out in all, and the category list is untouched |
| `ProductStore.DeleteProduct` | src/contexts/ProductContext.tsx:114-120 | the first request sent is `DELETE /products/:id`, at most three go out in all, and the category list is untouched |
| `ProductStore.UnconfirmedDeleteKeepsCaches` | src/contexts/ProductContext.tsx:114-120 | a delete the server does not confirm leaves the store unchanged and sends nothing after the delete |
| `ProductStore.ConfirmedUpdateResynchronises` | src/contexts/ProductContext.tsx:106-112 | a confirmed update with two successful refetches leaves exactly the refetched lists in the store, after update, mine, all requests |
| `ProductStore.ConfirmedDeleteWithFailedRefetch` | src/contexts/ProductContext.tsx:114-120 | a confirmed delete whose first refetch throws rethrows that error, keeps the store's lists and sends only the delete and that refetch |
| `ProductStore.ConfirmedCreateResynchronises` | src/contexts/ProductContext.tsx:97-103 | a confirmed create with two successful refetches leaves exactly the refetched lists in the store, after create, mine, all requests |
| `ProductFormPage.HandleInputChange` | src/pages/ProductForm.tsx:131-136 | the named field takes the value and every other field is unchanged |
| `ProductFormPage.HandleCategoryChange` | src/pages/ProductForm.tsx:139-145 | the category takes the value, the subcategory is cleared, every other field is unchanged |
| `ProductFormPage.AddTag` | src/pages/ProductForm.tsx:147-155 | the form's tags and tag box change as the shared tag rule says, nothing else changes, and the list stays well formed |
| `ProductFormPage.RemoveTag` | src/pages/ProductForm.tsx:157-162 | the form keeps exactly the tags different from the removed one and nothing else changes |
| `ProductFormPage.CategoryOptions` | src/pages/ProductForm.tsx:343-355 | the server's list when it is non-empty, else the static table's categories in order |
| `ProductFormPage.SubcategoryOptions` | src/pages/ProductForm.tsx:372-380 | the options are never empty, anything but the fallback comes from a category of the table, and rendering throws only for a name the table lacks |
| `ProductFormPage.SubcategoryOptionsCharacterised` | src/pages/ProductForm.tsx:372-380 | a table category offers its own subcategories and never "Other"; an inherited `Object.prototype` method with a positive `length` (such as `constructor`) makes rendering throw; any other category, the empty one included, offers exactly "Other" |
| `ProductFormPage.CategoryTableShape` | src/pages/ProductForm.tsx:32-41 | the table's categories are distinct and named, each with three subcategories, none of them "Other" |
| `ProductFormPage.ApplyCategories` | src/pages/ProductForm.tsx:87-96 | a successful response carrying `data` replaces the category list with it; the list changes in no other case |
| `ProductFormPage.LoadProduct` | src/pages/ProductForm.tsx:104-116 | every text field takes the product's value or "" when it is missing, tags and images take the product's list or []; the quantity box holds `toString` of the quantity, and is empty exactly when the product has none |
| `ProductFormPage.ApplyFetchedProduct` | src/pages/ProductForm.tsx:98-117 | the form is replaced by the loaded product exactly when a successful response carries one |
| `ProductFormPage.Validate` | src/pages/ProductForm.tsx:167-210 | no check fails when validation passes; otherwise the reported check fails and every earlier check passes |
| `ProductFormPage.MinOrderValue` | src/pages/ProductForm.tsx:222 | the quantity is undefined exactly when its field is empty, and a number or NaN otherwise |
| `ProductFormPage.Normalise` | src/pages/ProductForm.tsx:216-221 | name, description, sort_description and priceRange become their `trim`, so they end with no whitespace, and every other field is untouched |
| `ProductFormPage.Payload` | src/pages/ProductForm.tsx:215-227 | the payload has the eleven field names in order |
| `ProductFormPage.PayloadCarriesFields` | src/pages/ProductForm.tsx:215-227 | each field is sent under its own name: texts as strings, the quantity parsed, tags and images as lists |
| `ProductFormPage.PayloadTrimsText` | src/pages/ProductForm.tsx:215-227 | name, description, sort_description and priceRange are sent trimmed; category, subcategory, tags and the rest pass through unchanged |
| `ProductFormPage.PayloadKeepsTrimmedText` | src/pages/ProductForm.tsx:216-221 | a trimmed field without surrounding whitespace is sent exactly as typed |
| `ProductFormPage.PayloadIgnoresPadding` | src/pages/ProductForm.tsx:216-221 | whitespace typed around a trimmed field never changes the payload |
| `ProductFormPage.QuantityRoundTrip` | src/pages/ProductForm.tsx:111 | the text the form shows for a stored quantity is sent back as that quantity while its magnitude is below 10^21, and as its signed leading digit from there on; no quantity is sent as undefined |
| `ProductFormPage.LoadedQuantitySurvivesSubmit` | src/pages/ProductForm.tsx:104-116 | loading a product and submitting it sends its minimum order quantity back unchanged below 10^21 in magnitude, a single digit different from it above, and undefined when it had none |
| `ProductFormPage.Dispatch` | src/pages/ProductForm.tsx:230-234 | a valid form updates exactly when the route carries a non-empty id, and creates otherwise |
| `ProductFormPage.Save` | src/pages/ProductForm.tsx:229-242 | an update sends the payload as JSON to the product, a create sends its present fields as multipart text with the bearer header; with the backend down nothing is sent and the save fails with the unavailability error; otherwise it is saved exactly when the response is a 2xx success body, not confirmed on any other 2xx body, and fails with the thrown error |
| `ProductFormPage.Submit` | src/pages/ProductForm.tsx:164-253 | a failing check sends nothing and leaves the client as it was; otherwise the trimmed payload is saved |
| `CreateProductPage.InitialIsValid` | src/pages/CreateProduct.tsx:46-66 | the page starts valid, with no category and no subcategory |
| `CreateProductPage.HandleInputChange` | src/pages/CreateProduct.tsx:87-92 | the named field takes the value and no other field or state changes |
| `CreateProductPage.AddTag` | src/pages/CreateProduct.tsx:94-99 | the page's tags change as the shared tag rule says and the page stays valid |
| `CreateProductPage.RemoveTag` | src/pages/CreateProduct.tsx:101-103 | the page keeps exactly the tags different from the removed one and stays valid |
| `CreateProductPage.HandleImageChange` | src/pages/CreateProduct.tsx:106-131 | no selection or one that would exceed five images changes nothing; otherwise both lists grow by the selection, previews in order; images and files stay in step |
| `CreateProductPage.Previews` | src/pages/CreateProduct.tsx:125-128 | one preview per file, in order |
| `CreateProductPage.DropAt` | src/pages/CreateProduct.tsx:134-135 | the filter drops position k when it names one, and keeps everything when the index is missing or out of range |
| `CreateProductPage.HandleRemoveImage` | src/pages/CreateProduct.tsx:133-137 | the given position leaves both lists, which shrink by one and stay in step; a missing or out-of-range index changes nothing |
| `CreateProductPage.HandleVideoChange` | src/pages/CreateProduct.tsx:140-155 | the first selected file becomes the video with its preview unless it exceeds 5 MiB; no file changes nothing |
| `CreateProductPage.VideoLimitIsInclusive` | src/pages/CreateProduct.tsx:144 | a video of exactly 5242880 bytes is accepted and one of 5242881 is rejected |
| `CreateProductPage.HandleRemoveVideo` | src/pages/CreateProduct.tsx:157-161 | no video and no preview afterwards, nothing else changes |
| `CreateProductPage.SubcategoryOptions` | src/pages/CreateProduct.tsx:318-319 | no category offers nothing, a table category offers its own list, and any other category, inherited names included, has no list (rendering would throw) |
| `CreateProductPage.OfferedCategoriesHaveSubcategories` | src/pages/CreateProduct.tsx:22-35 | every category the select offers has a non-empty subcategory list |
| `CreateProductPage.TableShape` | src/pages/CreateProduct.tsx:22-35 | the table's keys are the offered categories, in order, distinct, each with a non-empty list |
| `CreateProductPage.SelectCategoryAsWritten` | src/pages/CreateProduct.tsx:294 | the category select writes the category and keeps the old subcategory |
| `CreateProductPage.StaleSubcategoryAsWritten` | src/pages/CreateProduct.tsx:294 | choosing "Lathes" under "Industrial Machinery" and then switching to "Construction Equipment" leaves a subcategory the new category does not offer |
| `CreateProductPage.SelectCategory` | src/pages/CreateProduct.tsx:294 | corrected select: the category changes, the subcategory is cleared, other fields are unchanged, and the choice is consistent |
| `CreateProductPage.SelectSubcategory` | src/pages/CreateProduct.tsx:311 | choosing an offered subcategory keeps the choice consistent with the category |
| `CreateProductPage.RemoveImageButtonAsWritten` | src/pages/CreateProduct.tsx:469 | the remove button as wired passes no index, so the page is unchanged |
| `CreateProductPage.FullImageListIsStuck` | src/pages/CreateProduct.tsx:451-469 | with five images, the button as wired removes nothing and every further selection is refused |
| `CreateProductPage.RemoveImageButton` | src/pages/CreateProduct.tsx:469 | corrected button: image i and its file leave the lists, which stay in step |
| `CreateProductPage.CorrectedButtonEmpties` | src/pages/CreateProduct.tsx:469 | with the corrected button, removing the first image shrinks the list |
| `CreateProductPage.BeginSubmit` | src/pages/CreateProduct.tsx:165-174 | submitting with nobody signed in is refused before anything is built; otherwise the page enters its loading state |
| `CreateProductPage.ApplyKeepsValid` | src/pages/CreateProduct.tsx:87-161 | every handler keeps images in step with files (at most five), the video preview in step with the video, and the tags well formed |
| `CreateProductPage.EventsKeepValid` | src/pages/CreateProduct.tsx:87-161 | every sequence of handler calls from a valid page, the remove button and category select both as written and as corrected, keeps the page valid |
| `ProductsPage.SetMin` | src/pages/Products.tsx:107 | the minimum moves to v when that leaves a 1000 gap, else stops 1000 below the maximum; the gap always holds |
| `ProductsPage.SetMax` | src/pages/Products.tsx:120 | the maximum moves to v when that leaves a 1000 gap, else stops 1000 above the minimum; the gap always holds |
| `ProductsPage.InitialIsValid` | src/pages/Products.tsx:17-18 | the initial range 0 to 100000 satisfies the slider invariant |
| `ProductsPage.MovesKeepValid` | src/pages/Products.tsx:101-120 | any sequence of slider moves with values in 0..100000 keeps 0 <= min, min + 1000 <= max <= 100000 |
| `ProductsPage.ClampedHandleRecovers` | src/pages/Products.tsx:107 | a minimum pushed against the maximum stops 1000 below it and moves freely again once asked for a value with room |
| `ProductsPage.CardImage` | src/pages/Products.tsx:153-156 | a product card shows the base URL followed by its first image when it has one, else the placeholder |

## Left out

- Rendering, toasts, `navigate` and logging: no state beyond what is modelled depends on them.
- The 5-second abort timer and `fetch` itself: the probe and every response are parameters.
- The base URL (`VITE_API_URL` or the localhost default): requests carry only their endpoint, and the card image takes the base as a parameter.
- The direct `fetch` inside `handleSubmit` of the create-product page (the upload itself, `FormData` of its fields, tags as JSON): only the signed-in guard and the loading flag are modelled.
- The optional `filters` of `getProducts` and `getMyProducts`: `getProducts` ignores them, and `getMyProducts` is modelled with none, giving the endpoint `/products/my/products?`.
- `URL.createObjectURL` and `revokeObjectURL`: a preview is the file it shows; revoking is not modelled, so the dangling preview left by the remove button as wired is not represented.
- The `certification` and `specifications` fields of the create-product page: they are never edited by any handler.
- Overlapping asynchronous store calls and their races: each store method is one atomic step.
- The access check that sends non-suppliers to the dashboard on both forms: it is a navigation side effect.
- The track position of the price sliders: it is a floating-point percentage used only for styling.
- Js.ParseInt: returns an unbounded integer, so the rounding of results beyond 2^53 to the nearest double is not modelled.
- Js.IntToString: numbers are exact integers, where JavaScript holds doubles and Number::toString writes the shortest digits that identify the double, padded with zeros; from 2^53 on the text can therefore differ from the model's: `(2**60).toString()` is "1152921504606847000" where the model writes "1152921504606846976", so the quantity text `LoadProduct` shows differs there too; from 10^21 on the same rounding applies to the exponent form (99999999999999991611392 prints as "1e+23"), where it can even change the leading digit.
- Js.Lookup: on a record with a repeated key the first entry wins, where an object literal keeps the last; every record the model reads has distinct keys.
- ProductFormPage.QuantityRoundTrip: a stored quantity is an integer; a fractional one (2.5, shown as "2.5" and sent back as 2 by `parseInt`) is outside the model, which has no floating point.
- ProductFormPage.LoadedQuantitySurvivesSubmit: a stored quantity is an integer; a fractional one, which `parseInt` truncates on the way back, is outside the model, which has no floating point.
- ProductFormPage.ApplyFetchedProduct: the navigation back to the dashboard after a failed load is not modelled; the form is kept.
- ProductStore.CreateProduct: its own contract states only the first request, the request count and the untouched category list; it returns ProductStore.AfterMutation of the client call, and the effect of the refetches is stated there and by the lemmas on confirmed and unconfirmed mutations.
- ProductStore.UpdateProduct: its own contract states only the first request, the request count and the untouched category list; it returns ProductStore.AfterMutation of the client call, and the effect of the refetches is stated there and by the lemmas on confirmed and unconfirmed mutations.
- ProductStore.DeleteProduct: its own contract states only the first request, the request count and the untouched category list; it returns ProductStore.AfterMutation of the client call, and the effect of the refetches is stated there and by the lemmas on confirmed and unconfirmed mutations.
- ProductFormPage.Save: the `JsonBody` it sends (like every `JsonBody` of ApiClient) holds the document handed to `JSON.stringify`, not the bytes sent; serialisation drops undefined entries and writes NaN as null, so a `minOrderQuantity` that is undefined (empty box) or NaN (non-numeric text) reaches the server as a missing key or as null.
- ApiClient.UpdateProfile: the `instanceof FormData` test is a parameter (`ProfileForm` or `ProfileFields`).
- `src/components/Dashboard/products.tsx` and `src/components/Auth/AutoRedirect.tsx` are not part of this model: the first is one hard-coded request and the second is commented out.

## Findings

| source | as written | input that shows it | evidently intended | confidence | as-written member | corrected member |
|---|---|---|---|---|---|---|
| src/pages/CreateProduct.tsx:469 | the remove button calls `handleRemoveImage(url)` without an index, so `i !== index` holds for every position and nothing is removed | any page with one image, pressing its remove button; with five images the list can never change again | pass the image's own index, `handleRemoveImage(url, i)` | not executed | `CreateProductPage.RemoveImageButtonAsWritten` | `CreateProductPage.RemoveImageButton` |
| src/pages/CreateProduct.tsx:294 | the category select calls `handleInputChange('category', value)` and keeps the old subcategory | choose "Industrial Machinery", then "Lathes", then "Construction Equipment": "Lathes" stays selected | clear the subcategory when the category changes, as `handleCategoryChange` of the product form does | not executed | `CreateProductPage.StaleSubcategoryAsWritten` | `CreateProductPage.SelectCategory` |

=== FILE: api_client.dfy ===
/** The REST client of the marketplace front end: one bearer-token slot
    mirrored into local storage, a backend-availability flag that is probed
    once and then cached, request configuration, and the domain operations,
    each of which refuses to touch the network while the backend is known to
    be down. The network is a parameter: the outcome of the health probe and
    the response to the one request an operation makes. */
module ApiClient {
  import opened Js

  // ---------------------------------------------------------------------
  // Data the client carries

  /** `localStorage`, as a map from keys to strings. */
  type Storage = map<string, string>

  const TokenKey := "auth_token"
  const DemoUsersKey := "demo_users"
  const DemoCurrentUserKey := "demo_current_user"

  datatype Role = Buyer | Supplier | Admin

  /** The signed-in account, as far as the forms look at it. */
  datatype User = User(id: string, role: Role)

  /** A product record as the server returns it; every field may be missing. */
  datatype Product = Product(
    id: string,
    name: Option<string>,
    description: Option<string>,
    sortDescription: Option<string>,
    category: Option<string>,
    subcategory: Option<string>,
    priceRange: Option<string>,
    minOrderQuantity: Option<int>,
    countryOfOrigin: Option<string>,
    tags: Option<seq<string>>,
    certifications: Option<string>,
    images: Option<seq<string>>)

  /** The response envelope. `success` reads as false when the server leaves
      it out; `products` and `categories` are the extra fields the product
      store reads. */
  datatype Envelope<D> = Envelope(
    success: bool,
    message: Option<string>,
    data: Option<D>,
    token: Option<string>,
    products: Option<seq<Product>>,
    categories: Option<seq<string>>)

  /** A parsed response body: a bare array of products, or an envelope. */
  datatype Body<D> = Bare(items: seq<Product>) | Wrapped(envelope: Envelope<D>) {
    /** `res.success` is truthy. */
    predicate Succeeded() {
      Wrapped? && envelope.success
    }
  }

  /** The client's state: the token slot, the availability cache and the
      storage it mirrors the token into. */
  datatype Client = Client(token: Option<string>, available: Option<bool>, storage: Storage)

  /** A token JavaScript treats as true: present and not empty. */
  predicate Truthy(token: Option<string>) {
    token.Some? && token.value != ""
  }

  /** The token slot and storage agree: a stored token is the slot's value,
      and a usable token in the slot is stored. */
  predicate TokenMirrored(c: Client) {
    && (TokenKey in c.storage ==> c.token == Some(c.storage[TokenKey]))
    && (Truthy(c.token) ==> TokenKey in c.storage)
  }

  /** Storage is the same apart from the token key. */
  ghost predicate SameOtherKeys(a: Storage, b: Storage) {
    forall k :: k != TokenKey ==> (k in a <==> k in b) && (k in a ==> a[k] == b[k])
  }

  /** The constructor: the token is read back from storage, the availability is
      not yet known, and the demo keys an older build left behind are removed. */
  function NewClient(storage: Storage): (c: Client)
    ensures c.available.None?
    ensures TokenMirrored(c)
    ensures TokenKey in storage <==> c.token.Some?
    ensures DemoUsersKey !in c.storage && DemoCurrentUserKey !in c.storage
    ensures forall k :: k in storage && k != DemoUsersKey && k != DemoCurrentUserKey ==>
              k in c.storage && c.storage[k] == storage[k]
  {
    var token := if TokenKey in storage then Some(storage[TokenKey]) else None;
    Client(token, None, storage - {DemoUsersKey, DemoCurrentUserKey})
  }

  /** `setToken`: the slot always takes the new value; storage keeps it when it
      is a usable token and drops the key otherwise. */
  function SetToken(c: Client, token: Option<string>): (r: Client)
    ensures r.token == token && r.available == c.available
    ensures TokenKey in r.storage <==> Truthy(token)
    ensures TokenMirrored(r)
    ensures SameOtherKeys(r.storage, c.storage)
  {
    if Truthy(token) then c.(token := token, storage := c.storage[TokenKey := token.value])
    else c.(token := token, storage := c.storage - {TokenKey})
  }

  // ---------------------------------------------------------------------
  // Backend availability

  /** The health probe: the `ok` flag of `GET /health`, or the fetch threw
      (refused connection, or the 5-second abort fired). */
  datatype Probe = Answered(ok: bool) | ProbeFailed

  datatype Checked = Checked(client: Client, available: bool)

  /** `checkBackendAvailability`: a known answer is returned without probing;
      otherwise the probe's answer is cached, a failed probe as `false`. */
  function CheckAvailability(c: Client, probe: Probe): (r: Checked)
    ensures r.client == c.(available := Some(r.available))
    ensures c.available.Some? ==> r.available == c.available.value
    ensures c.available.None? ==> (r.available <==> probe == Answered(true))
  {
    if c.available.Some? then Checked(c, c.available.value)
    else
      var ok := match probe
        case Answered(ok) => ok
        case ProbeFailed => false;
      Checked(c.(available := Some(ok)), ok)
  }

  /** The cache is written once: a second check, whatever its probe would
      say, returns the first answer and changes nothing. */
  lemma AvailabilityIsWriteOnce(c: Client, first: Probe, second: Probe)
    ensures var a := CheckAvailability(c, first);
            CheckAvailability(a.client, second) == a
  {
  }

  // ---------------------------------------------------------------------
  // Requests

  type Headers = map<string, string>

  const ContentTypeHeader := "Content-Type"
  const AuthorizationHeader := "Authorization"
  const JsonMediaType := "application/json"

  /** The credentials of section 2.1 of RFC 6750: `Bearer`, one space, the token. */
  function Bearer(token: string): (r: string)
    ensures |r| == |token| + 7 && r[..7] == "Bearer " && r[7..] == token
  {
    "Bearer " + token
  }

  /** A token as a template literal prints it: `null` becomes the text "null". */
  function TokenText(token: Option<string>): string {
    token.GetOr("null")
  }

  /** The merged default headers: JSON content type, plus the bearer token
      when the slot holds a usable one. */
  function DefaultHeaders(token: Option<string>): (h: Headers)
    ensures ContentTypeHeader in h && h[ContentTypeHeader] == JsonMediaType
    ensures AuthorizationHeader in h <==> Truthy(token)
    ensures AuthorizationHeader in h ==> h[AuthorizationHeader] == Bearer(token.value)
    ensures h.Keys <= {ContentTypeHeader, AuthorizationHeader}
  {
    var base := map[ContentTypeHeader := JsonMediaType];
    if Truthy(token) then base[AuthorizationHeader := Bearer(token.value)] else base
  }

  datatype Method = Get | Post | Put | Delete

  /** One entry of a multipart body, added by `FormData.append`. */
  datatype FormPart = TextPart(name: string, text: string) | FilePart(name: string, file: File)

  datatype RequestBody = NoBody | JsonBody(document: Document) | FormBody(parts: seq<FormPart>)

  /** The `options` argument of `request`; `headers` is `None` when the caller
      gives no `headers` key. */
  datatype RequestOptions = RequestOptions(verb: Option<Method>, headers: Option<Headers>, body: RequestBody)

  /** The request that goes on the wire (the base URL is left out). */
  datatype HttpRequest = HttpRequest(verb: Method, endpoint: string, headers: Headers, body: RequestBody)

  /** The request configuration `request` builds: the defaults merged with the
      caller's headers, after which the caller's options are spread on top, so
      that a caller-supplied `headers` replaces the merged object wholesale. */
  function Configure(token: Option<string>, endpoint: string, options: RequestOptions): (req: HttpRequest)
    ensures req.endpoint == endpoint && req.body == options.body
    ensures req.verb == (if options.verb.Some? then options.verb.value else Get)
    ensures options.headers.Some? ==> req.headers == options.headers.value
    ensures options.headers.None? ==> req.headers == DefaultHeaders(token)
  {
    var merged := DefaultHeaders(token) + options.headers.GetOr(map[]);
    var config := HttpRequest(options.verb.GetOr(Get), endpoint, merged, options.body);
    if options.headers.Some? then config.(headers := options.headers.value) else config
  }

  /** Caller headers drop the bearer token even when the client holds one:
      a caller that passes headers without `Authorization` sends none. */
  lemma CallerHeadersDropToken(token: Option<string>, endpoint: string, options: RequestOptions)
    requires options.headers.Some? && AuthorizationHeader !in options.headers.value
    ensures AuthorizationHeader !in Configure(token, endpoint, options).headers
  {
  }

  /** What the server sent back: a status and a parsed body, or nothing usable
      (the fetch threw, or the body was not JSON). */
  datatype HttpResponse<D> = Received(status: int, body: Body<D>) | Unreachable

  /** The three ways an operation throws. */
  datatype ApiError = BackendUnavailable(message: string) | HttpError(message: string) | NetworkError

  const GenericErrorMessage := "An error occurred"
  const UnavailableMessage := "Backend server not available. Please start the MongoDB backend server first.\n\nRun: cd backend && npm run dev"
  const CreateUnavailableMessage := "Backend not available. Please start MongoDB backend first."

  /** `data.message || 'An error occurred'`. */
  function ErrorMessage<D>(body: Body<D>): (m: string)
    ensures m != ""
    ensures body.Wrapped? && body.envelope.message.Some? && body.envelope.message.value != "" ==>
              m == body.envelope.message.value
    ensures !(body.Wrapped? && body.envelope.message.Some? && body.envelope.message.value != "") ==>
              m == GenericErrorMessage
  {
    if body.Wrapped? && body.envelope.message.Some? && body.envelope.message.value != "" then
      body.envelope.message.value
    else
      GenericErrorMessage
  }

  predicate IsOkStatus(status: int) {
    200 <= status <= 299
  }

  /** How `request` turns a response into a result: the body on an OK status,
      an error carrying the server's message otherwise. */
  function Outcome<D>(response: HttpResponse<D>): (r: Result<Body<D>, ApiError>)
    ensures r.Ok? <==> response.Received? && IsOkStatus(response.status)
    ensures r.Ok? ==> r.value == response.body
    ensures response.Unreachable? ==> r == Thrown(NetworkError)
    ensures response.Received? && !IsOkStatus(response.status) ==>
              r == Thrown(HttpError(ErrorMessage(response.body)))
  {
    match response
    case Unreachable => Thrown(NetworkError)
    case Received(status, body) =>
      if IsOkStatus(status) then Ok(body) else Thrown(HttpError(ErrorMessage(body)))
  }

  /** What one client operation did: the client afterwards, the requests it
      sent (none or one), and what it returned or threw. */
  datatype Call<D> = Call(client: Client, sent: seq<HttpRequest>, outcome: Result<Body<D>, ApiError>)

  /** `request`: sends one configured request and reports its outcome. */
  function Request<D>(c: Client, endpoint: string, options: RequestOptions, response: HttpResponse<D>): (r: Call<D>)
    ensures r.client == c && |r.sent| == 1
    ensures r.sent[0].endpoint == endpoint && r.sent[0].body == options.body
    ensures r.sent[0].verb == (if options.verb.Some? then options.verb.value else Get)
    ensures options.headers.Some? ==> r.sent[0].headers == options.headers.value
    ensures options.headers.None? ==> r.sent[0].headers == DefaultHeaders(c.token)
    ensures r.outcome.Ok? <==> response.Received? && IsOkStatus(response.status)
    ensures r.outcome.Ok? ==> r.outcome.value == response.body
    ensures response.Received? && !IsOkStatus(response.status) ==>
              r.outcome == Thrown(HttpError(ErrorMessage(response.body)))
    ensures response.Unreachable? ==> r.outcome == Thrown(NetworkError)
  {
    Call(c, [Configure(c.token, endpoint, options)], Outcome(response))
  }

  /** The guard in front of every domain operation: when the backend is not
      available the operation throws before building its request. */
  function Gated<D>(c: Client, probe: Probe, message: string, endpoint: string,
                    options: RequestOptions, response: HttpResponse<D>): (r: Call<D>)
    ensures r.client == CheckAvailability(c, probe).client
    ensures !CheckAvailability(c, probe).available ==>
              r.sent == [] && r.outcome == Thrown(BackendUnavailable(message))
    ensures CheckAvailability(c, probe).available ==>
              r.sent == [Configure(c.token, endpoint, options)] && r.outcome == Outcome(response)
  {
    var checked := CheckAvailability(c, probe);
    if !checked.available then Call(checked.client, [], Thrown(BackendUnavailable(message)))
    else Request(checked.client, endpoint, options, response)
  }

  /** What every gated operation reports: with the backend available it sends
      exactly one request and returns or throws what that request's response
      gives; otherwise it sends nothing and throws the unavailability error. */
  ghost predicate ReportsOutcome<D>(r: Call<D>, c: Client, probe: Probe, message: string, response: HttpResponse<D>) {
    if CheckAvailability(c, probe).available then |r.sent| == 1 && r.outcome == Outcome(response)
    else r.sent == [] && r.outcome == Thrown(BackendUnavailable(message))
  }

  // ---------------------------------------------------------------------
  // Authentication

  /** The response handed out a session token. */
  predicate GrantsToken<D>(outcome: Result<Body<D>, ApiError>) {
    outcome.Ok? && outcome.value.Succeeded() && Truthy(outcome.value.envelope.token)
  }

  /** Stores the token of a successful response, if it carries one. */
  function AdoptToken<D>(call: Call<D>): (r: Call<D>)
    ensures r.sent == call.sent && r.outcome == call.outcome
    ensures r.client.available == call.client.available
    ensures GrantsToken(call.outcome) ==> r.client == SetToken(call.client, call.outcome.value.envelope.token)
    ensures !GrantsToken(call.outcome) ==> r.client == call.client
  {
    if GrantsToken(call.outcome) then call.(client := SetToken(call.client, call.outcome.value.envelope.token))
    else call
  }

  /** `login`: posts the credentials; the token changes only when the server
      reports success and hands one out. */
  function Login<D>(c: Client, probe: Probe, email: string, password: string,
                    response: HttpResponse<D>): (r: Call<D>)
    ensures r.client.available == Some(CheckAvailability(c, probe).available)
    ensures GrantsToken(r.outcome) ==>
              r.client.token == r.outcome.value.envelope.token && TokenKey in r.client.storage
    ensures !GrantsToken(r.outcome) ==> r.client.token == c.token && r.client.storage == c.storage
    ensures |r.sent| == 1 ==> r.sent[0].verb == Post && r.sent[0].endpoint == "/auth/login"
    ensures |r.sent| == 1 ==>
              r.sent[0].body == JsonBody([("email", Str(email)), ("password", Str(password))])
    ensures ReportsOutcome(r, c, probe, UnavailableMessage, response)
    ensures GrantsToken(r.outcome) ==> r.client == SetToken(CheckAvailability(c, probe).client, r.outcome.value.envelope.token)
    ensures !GrantsToken(r.outcome) ==> r.client == CheckAvailability(c, probe).client
    ensures |r.sent| == 1 ==> r.sent[0].headers == DefaultHeaders(c.token)
  {
    var credentials := [("email", Str(email)), ("password", Str(password))];
    AdoptToken(Gated(c, probe, UnavailableMessage, "/auth/login",
                     RequestOptions(Some(Post), None, JsonBody(credentials)), response))
  }

  /** `register`: posts the registration fields; the token rule is `login`'s. */
  function Register<D>(c: Client, probe: Probe, registration: Document,
                       response: HttpResponse<D>): (r: Call<D>)
    ensures r.client.available == Some(CheckAvailability(c, probe).available)
    ensures GrantsToken(r.outcome) ==>
              r.client.token == r.outcome.value.envelope.token && TokenKey in r.client.storage
    ensures !GrantsToken(r.outcome) ==> r.client.token == c.token && r.client.storage == c.storage
    ensures |r.sent| == 1 ==> r.sent[0].verb == Post && r.sent[0].endpoint == "/auth/register"
    ensures |r.sent| == 1 ==> r.sent[0].body == JsonBody(registration)
    ensures ReportsOutcome(r, c, probe, UnavailableMessage, response)
    ensures GrantsToken(r.outcome) ==> r.client == SetToken(CheckAvailability(c, probe).client, r.outcome.value.envelope.token)
    ensures !GrantsToken(r.outcome) ==> r.client == CheckAvailability(c, probe).client
    ensures |r.sent| == 1 ==> r.sent[0].headers == DefaultHeaders(c.token)
  {
    AdoptToken(Gated(c, probe, UnavailableMessage, "/auth/register",
                     RequestOptions(Some(Post), None, JsonBody(registration)), response))
  }

  /** What `logout` returns when it could not reach the backend. */
  function LocalLogout<D>(): Envelope<D> {
    Envelope(true, Some("Logged out locally"), None, None, None, None)
  }

  /** `logout`: the one operation that works with the backend down. Whichever
      way it ends (logged out locally, the server's answer, or the server's
      error rethrown) the token is gone from the slot and from storage. */
  function Logout<D>(c: Client, probe: Probe, response: HttpResponse<D>): (r: Call<D>)
    ensures r.client.token.None? && TokenKey !in r.client.storage
    ensures SameOtherKeys(r.client.storage, c.storage)
    ensures r.client.available == Some(CheckAvailability(c, probe).available)
    ensures !CheckAvailability(c, probe).available ==> r.sent == [] && r.outcome == Ok(Wrapped(LocalLogout()))
    ensures CheckAvailability(c, probe).available ==>
              r.sent == [Configure(c.token, "/auth/logout", RequestOptions(Some(Post), None, NoBody))]
              && r.outcome == Outcome(response)
  {
    var checked := CheckAvailability(c, probe);
    if !checked.available then
      Call(SetToken(checked.client, None), [], Ok(Wrapped(LocalLogout())))
    else
      var call := Request(checked.client, "/auth/logout", RequestOptions(Some(Post), None, NoBody), response);
      match call.outcome
      case Ok(_) => call.(client := SetToken(call.client, None))
      case Thrown(_) => call.(client := SetToken(call.client, None))
  }

  /** `getCurrentUser`: `GET /auth/me`. */
  function GetCurrentUser<D>(c: Client, probe: Probe, response: HttpResponse<D>): (r: Call<D>)
    ensures r.client == CheckAvailability(c, probe).client
    ensures |r.sent| == 1 ==> r.sent[0].verb == Get && r.sent[0].endpoint == "/auth/me"
    ensures ReportsOutcome(r, c, probe, UnavailableMessage, response)
    ensures |r.sent| == 1 ==> r.sent[0].headers == DefaultHeaders(c.token)
  {
    Gated(c, probe, UnavailableMessage, "/auth/me", RequestOptions(None, None, NoBody), response)
  }

  /** The two payload kinds `updateProfile` accepts. */
  datatype ProfilePayload = ProfileForm(parts: seq<FormPart>) | ProfileFields(document: Document)

  /** `updateProfile`: its own headers, so the defaults are dropped; the token
      is read from storage, and a missing one is sent as "Bearer null". */
  function UpdateProfile<D>(c: Client, probe: Probe, payload: ProfilePayload,
                            response: HttpResponse<D>): (r: Call<D>)
    ensures r.client == CheckAvailability(c, probe).client
    ensures |r.sent| == 1 ==> r.sent[0].verb == Put && r.sent[0].endpoint == "/auth/profile"
    ensures |r.sent| == 1 ==> (AuthorizationHeader in r.sent[0].headers &&
              r.sent[0].headers[AuthorizationHeader] ==
                Bearer(if TokenKey in c.storage then c.storage[TokenKey] else "null"))
    ensures |r.sent| == 1 ==> (ContentTypeHeader in r.sent[0].headers <==> payload.ProfileFields?)
    ensures |r.sent| == 1 && ContentTypeHeader in r.sent[0].headers ==>
              r.sent[0].headers[ContentTypeHeader] == JsonMediaType
    ensures |r.sent| == 1 ==> r.sent[0].headers.Keys <= {ContentTypeHeader, AuthorizationHeader}
    ensures |r.sent| == 1 ==>
              r.sent[0].body == (match payload
                                 case ProfileForm(parts) => FormBody(parts)
                                 case ProfileFields(document) => JsonBody(document))
    ensures ReportsOutcome(r, c, probe, UnavailableMessage, response)
  {
    var stored := if TokenKey in c.storage then Some(c.storage[TokenKey]) else None;
    var contentType: Headers := if payload.ProfileForm? then map[] else map[ContentTypeHeader := JsonMediaType];
    var headers := contentType[AuthorizationHeader := Bearer(TokenText(stored))];
    var body := match payload
      case ProfileForm(parts) => FormBody(parts)
      case ProfileFields(document) => JsonBody(document);
    Gated(c, probe, UnavailableMessage, "/auth/profile", RequestOptions(Some(Put), Some(headers), body), response)
  }

  // ---------------------------------------------------------------------
  // Products

  /** `getProducts`: `GET /products`; the filters are not sent. */
  function GetProducts<D>(c: Client, probe: Probe, response: HttpResponse<D>): (r: Call<D>)
    ensures r.client == CheckAvailability(c, probe).client
    ensures |r.sent| == 1 ==> r.sent[0].verb == Get && r.sent[0].endpoint == "/products"
    ensures ReportsOutcome(r, c, probe, UnavailableMessage, response)
    ensures |r.sent| == 1 ==> r.sent[0].headers == DefaultHeaders(c.token)
  {
    Gated(c, probe, UnavailableMessage, "/products", RequestOptions(None, None, NoBody), response)
  }

  /** `getProduct`: `GET /products/:id`. */
  function GetProduct<D>(c: Client, probe: Probe, id: string, response: HttpResponse<D>): (r: Call<D>)
    ensures r.client == CheckAvailability(c, probe).client
    ensures |r.sent| == 1 ==> r.sent[0].verb == Get && r.sent[0].endpoint == "/products/" + id
    ensures ReportsOutcome(r, c, probe, UnavailableMessage, response)
    ensures |r.sent| == 1 ==> r.sent[0].headers == DefaultHeaders(c.token)
  {
    Gated(c, probe, UnavailableMessage, "/products/" + id, RequestOptions(None, None, NoBody), response)
  }

  /** The text entries of the multipart body: each field whose value is neither
      `undefined` nor `null`, as text, in field order. */
  function TextParts(fields: Document): (parts: seq<FormPart>)
    ensures |parts| <= |fields|
    ensures forall i :: 0 <= i < |parts| ==> parts[i].TextPart?
  {
    if fields == [] then []
    else if IsPresent(fields[0].1) then [TextPart(fields[0].0, ToText(fields[0].1))] + TextParts(fields[1..])
    else TextParts(fields[1..])
  }

  /** One `images` entry per file, in order. */
  function FileParts(files: seq<File>): (parts: seq<FormPart>)
    ensures |parts| == |files|
    ensures forall i :: 0 <= i < |files| ==> parts[i] == FilePart("images", files[i])
  {
    seq(|files|, i requires 0 <= i < |files| => FilePart("images", files[i]))
  }

  /** Building the text entries distributes over the fields: with the one-field
      cases below this fixes the entries, order included, for every payload. */
  lemma {:induction false} TextPartsAppend(a: Document, b: Document)
    ensures TextParts(a + b) == TextParts(a) + TextParts(b)
  {
    if a == [] {
      assert a + b == b;
    } else {
      assert (a + b)[0] == a[0];
      assert (a + b)[1..] == a[1..] + b;
      TextPartsAppend(a[1..], b);
    }
  }

  /** A field with a value becomes one entry holding its text. */
  lemma TextPartOfPresent(name: string, v: Value)
    requires IsPresent(v)
    ensures TextParts([(name, v)]) == [TextPart(name, ToText(v))]
  {
    assert [(name, v)][1..] == [];
  }

  /** A field that is `undefined` or `null` is left out. */
  lemma TextPartOfAbsent(name: string, v: Value)
    requires !IsPresent(v)
    ensures TextParts([(name, v)]) == []
  {
    assert [(name, v)][1..] == [];
  }

  /** When no field is `undefined` or `null`, every field is sent, in order. */
  lemma {:induction false} TextPartsOfComplete(fields: Document)
    requires forall i :: 0 <= i < |fields| ==> IsPresent(fields[i].1)
    ensures |TextParts(fields)| == |fields|
    ensures forall i :: 0 <= i < |fields| ==>
              TextParts(fields)[i] == TextPart(fields[i].0, ToText(fields[i].1))
  {
    if fields != [] {
      TextPartsOfComplete(fields[1..]);
    }
  }

  /** The multipart body of `createProduct`: the text entries, then the images. */
  function ProductParts(fields: Document, images: Option<seq<File>>): (parts: seq<FormPart>)
    ensures var files := images.GetOr([]);
            && |parts| == |TextParts(fields)| + |files|
            && parts[..|TextParts(fields)|] == TextParts(fields)
            && forall i :: 0 <= i < |files| ==> parts[|TextParts(fields)| + i] == FilePart("images", files[i])
  {
    var text, files := TextParts(fields), FileParts(images.GetOr([]));
    var parts := text + files;
    assert parts[..|text|] == text;
    assert forall i :: 0 <= i < |files| ==> parts[|text| + i] == files[i];
    parts
  }

  /** `createProduct`: a multipart `POST /products/create-new` whose only
      header is the bearer token as a template literal prints it (so a missing
      token goes out as "Bearer null"): the present fields as text, then each
      image under `images`, in order. */
  function CreateProduct<D>(c: Client, probe: Probe, fields: Document, images: Option<seq<File>>,
                            response: HttpResponse<D>): (r: Call<D>)
    ensures r.client == CheckAvailability(c, probe).client
    ensures |r.sent| == 1 ==> r.sent[0].verb == Post && r.sent[0].endpoint == "/products/create-new"
    ensures |r.sent| == 1 ==> r.sent[0].headers == map[AuthorizationHeader := Bearer(TokenText(c.token))]
    ensures |r.sent| == 1 ==> r.sent[0].body == FormBody(ProductParts(fields, images))
    ensures ReportsOutcome(r, c, probe, CreateUnavailableMessage, response)
  {
    var headers := map[AuthorizationHeader := Bearer(TokenText(c.token))];
    Gated(c, probe, CreateUnavailableMessage, "/products/create-new",
          RequestOptions(Some(Post), Some(headers), FormBody(ProductParts(fields, images))), response)
  }

  /** `updateProduct`: `PUT /products/:id` with the fields as JSON. */
  function UpdateProduct<D>(c: Client, probe: Probe, id: string, fields: Document,
                            response: HttpResponse<D>): (r: Call<D>)
    ensures r.client == CheckAvailability(c, probe).client
    ensures |r.sent| == 1 ==> r.sent[0].verb == Put && r.sent[0].endpoint == "/products/" + id
    ensures |r.sent| == 1 ==> r.sent[0].body == JsonBody(fields)
    ensures ReportsOutcome(r, c, probe, UnavailableMessage, response)
    ensures |r.sent| == 1 ==> r.sent[0].headers == DefaultHeaders(c.token)
  {
    Gated(c, probe, UnavailableMessage, "/products/" + id, RequestOptions(Some(Put), None, JsonBody(fields)), response)
  }

  /** `deleteProduct`: `DELETE /products/:id`. */
  function DeleteProduct<D>(c: Client, probe: Probe, id: string, response: HttpResponse<D>): (r: Call<D>)
    ensures r.client == CheckAvailability(c, probe).client
    ensures |r.sent| == 1 ==> r.sent[0].verb == Delete && r.sent[0].endpoint == "/products/" + id
    ensures ReportsOutcome(r, c, probe, UnavailableMessage, response)
    ensures |r.sent| == 1 ==> r.sent[0].headers == DefaultHeaders(c.token)
  {
    Gated(c, probe, UnavailableMessage, "/products/" + id, RequestOptions(Some(Delete), None, NoBody), response)
  }

  /** The endpoint `getMyProducts` builds when given no filters. */
  const MyProductsEndpoint := "/products/my/products?"

  /** `getMyProducts`: the caller's own products. */
  function GetMyProducts<D>(c: Client, probe: Probe, response: HttpResponse<D>): (r: Call<D>)
    ensures r.client == CheckAvailability(c, probe).client
    ensures |r.sent| == 1 ==> r.sent[0].verb == Get && r.sent[0].endpoint == MyProductsEndpoint
    ensures ReportsOutcome(r, c, probe, UnavailableMessage, response)
    ensures |r.sent| == 1 ==> r.sent[0].headers == DefaultHeaders(c.token)
  {
    Gated(c, probe, UnavailableMessage, MyProductsEndpoint, RequestOptions(None, None, NoBody), response)
  }

  /** `getCategories`: `GET /products/categories`. */
  function GetCategories<D>(c: Client, probe: Probe, response: HttpResponse<D>): (r: Call<D>)
    ensures r.client == CheckAvailability(c, probe).client
    ensures |r.sent| == 1 ==> r.sent[0].verb == Get && r.sent[0].endpoint == "/products/categories"
    ensures ReportsOutcome(r, c, probe, UnavailableMessage, response)
    ensures |r.sent| == 1 ==> r.sent[0].headers == DefaultHeaders(c.token)
  {
    Gated(c, probe, UnavailableMessage, "/products/categories", RequestOptions(None, None, NoBody), response)
  }

  /** `checkHealth`: `GET /health`, behind the same guard. */
  function CheckHealth<D>(c: Client, probe: Probe, response: HttpResponse<D>): (r: Call<D>)
    ensures r.client == CheckAvailability(c, probe).client
    ensures |r.sent| == 1 ==> r.sent[0].verb == Get && r.sent[0].endpoint == "/health"
    ensures ReportsOutcome(r, c, probe, UnavailableMessage, response)
    ensures |r.sent| == 1 ==> r.sent[0].headers == DefaultHeaders(c.token)
  {
    Gated(c, probe, UnavailableMessage, "/health", RequestOptions(None, None, NoBody), response)
  }

  // ---------------------------------------------------------------------
  // Every operation at once

  datatype Operation =
    | LoginOp(email: string, password: string)
    | RegisterOp(registration: Document)
    | LogoutOp
    | CurrentUserOp
    | UpdateProfileOp(profile: ProfilePayload)
    | ProductsOp
    | ProductOp(id: string)
    | CreateProductOp(fields: Document, images: Option<seq<File>>)
    | UpdateProductOp(id: string, fields: Document)
    | DeleteProductOp(id: string)
    | MyProductsOp
    | CategoriesOp
    | HealthOp

  function Perform<D>(c: Client, probe: Probe, op: Operation, response: HttpResponse<D>): Call<D> {
    match op
    case LoginOp(email, password) => Login(c, probe, email, password, response)
    case RegisterOp(registration) => Register(c, probe, registration, response)
    case LogoutOp => Logout(c, probe, response)
    case CurrentUserOp => GetCurrentUser(c, probe, response)
    case UpdateProfileOp(profile) => UpdateProfile(c, probe, profile, response)
    case ProductsOp => GetProducts(c, probe, response)
    case ProductOp(id) => GetProduct(c, probe, id, response)
    case CreateProductOp(fields, images) => CreateProduct(c, probe, fields, images, response)
    case UpdateProductOp(id, fields) => UpdateProduct(c, probe, id, fields, response)
    case DeleteProductOp(id) => DeleteProduct(c, probe, id, response)
    case MyProductsOp => GetMyProducts(c, probe, response)
    case CategoriesOp => GetCategories(c, probe, response)
    case HealthOp => CheckHealth(c, probe, response)
  }

  /** Every operation but `logout` throws the unavailability error without
      sending anything when the backend is down, and leaves the session as it
      was. */
  lemma UnavailableBackendBlocksEveryOperation<D>(c: Client, probe: Probe, op: Operation, response: HttpResponse<D>)
    requires !op.LogoutOp?
    requires !CheckAvailability(c, probe).available
    ensures var r := Perform(c, probe, op, response);
            && r.sent == []
            && r.outcome.Thrown? && r.outcome.error.BackendUnavailable?
            && r.client == c.(available := Some(false))
  {
  }

  /** With the backend available every operation, `logout` included, sends one
      request and returns what `request` makes of its response: the body on a
      2xx status, the server's message (or "An error occurred") otherwise. */
  lemma AvailableBackendAnswersEveryOperation<D>(c: Client, probe: Probe, op: Operation, response: HttpResponse<D>)
    requires CheckAvailability(c, probe).available
    ensures var r := Perform(c, probe, op, response);
            && |r.sent| == 1
            && r.outcome == Outcome(response)
  {
  }

  /** After any operation the availability is known, and a known availability
      never changes. */
  lemma AvailabilityIsSettled<D>(c: Client, probe: Probe, op: Operation, response: HttpResponse<D>)
    ensures var r := Perform(c, probe, op, response);
            && r.client.available.Some?
            && (c.available.Some? ==> r.client.available == c.available)
  {
  }

  /** Only `login`, `register` and `logout` touch the session token. */
  lemma OnlyAuthenticationTouchesToken<D>(c: Client, probe: Probe, op: Operation, response: HttpResponse<D>)
    requires !op.LoginOp? && !op.RegisterOp? && !op.LogoutOp?
    ensures var r := Perform(c, probe, op, response);
            r.client.token == c.token && r.client.storage == c.storage
  {
  }

  /** Every operation keeps the token slot and storage in agreement. */
  lemma EveryOperationKeepsTokenMirrored<D>(c: Client, probe: Probe, op: Operation, response: HttpResponse<D>)
    requires TokenMirrored(c)
    ensures TokenMirrored(Perform(c, probe, op, response).client)
  {
  }

  /** Every operation sends at most one request. */
  lemma AtMostOneRequest<D>(c: Client, probe: Probe, op: Operation, response: HttpResponse<D>)
    ensures |Perform(c, probe, op, response).sent| <= 1
  {
  }

  /** After `logout` the operations that use the default headers send no
      bearer token. */
  lemma AnonymousAfterLogout<D, E>(c: Client, probe: Probe, logoutResponse: HttpResponse<D>,
                                   op: Operation, response: HttpResponse<E>)
    requires !op.UpdateProfileOp? && !op.CreateProductOp?
    ensures var after := Logout(c, probe, logoutResponse).client;
            var r := Perform(after, probe, op, response);
            forall i :: 0 <= i < |r.sent| ==> AuthorizationHeader !in r.sent[i].headers
  {
  }

  /** While a token is held, every request an operation sends carries it as
      a bearer token; `updateProfile` is left aside because it reads the
      token from storage instead. */
  lemma HeldTokenIsSent<D>(c: Client, probe: Probe, op: Operation, response: HttpResponse<D>)
    requires Truthy(c.token) && !op.UpdateProfileOp?
    ensures var r := Perform(c, probe, op, response);
            forall i :: 0 <= i < |r.sent| ==>
              AuthorizationHeader in r.sent[i].headers && r.sent[i].headers[AuthorizationHeader] == Bearer(c.token.value)
  {
  }

  /** After `logout`, `createProduct` still sends an `Authorization` header,
      holding "Bearer null". */
  lemma CreateProductAfterLogoutSendsBearerNull<D, E>(c: Client, probe: Probe, logoutResponse: HttpResponse<D>,
                                                      fields: Document, images: Option<seq<File>>,
                                                      response: HttpResponse<E>)
    requires CheckAvailability(c, probe).available
    ensures var after := Logout(c, probe, logoutResponse).client;
            var r := CreateProduct(after, probe, fields, images, response);
            |r.sent| == 1 && r.sent[0].headers[AuthorizationHeader] == "Bearer null"
  {
  }
}

=== FILE: create_product.dfy ===
/** The create-product page: its text fields, its tag list, up to five
    images kept in step with the files they preview, one optional video of
    at most 5 MiB, the category and subcategory selects, and the guard in
    front of submitting. */
module CreateProductPage {
  import opened Js
  import opened ApiClient
  import Tags

  // ---------------------------------------------------------------------
  // State

  /** The page state. `fields` holds the text fields by name; `images` are
      the preview URLs of `fileList`, position by position. */
  datatype Page = Page(
    fields: map<string, string>,
    tags: Tags.TagInput,
    images: seq<ObjectUrl>,
    fileList: seq<File>,
    videoFile: Option<File>,
    videoPreview: Option<ObjectUrl>,
    loading: bool)

  const NameField := "name"
  const CategoryField := "category"
  const SubcategoryField := "subcategory"

  /** The text fields the page starts with; the country defaults to China. */
  const InitialFields: map<string, string> := map[
    NameField := "", "description" := "", "sort_description" := "", CategoryField := "",
    SubcategoryField := "", "priceRange" := "", "minOrderQuantity" := "", "countryOfOrigin" := "China"]

  const Initial := Page(InitialFields, Tags.TagInput([], ""), [], [], None, None, false)

  /** At most this many images may be attached. */
  const MaxImages := 5

  /** The largest accepted video, in bytes: 5 MiB. */
  const MaxVideoBytes := 5 * 1024 * 1024

  /** What the image handlers keep: one preview per file, in the same order,
      and at most `MaxImages` of them. */
  predicate ImagesInStep(p: Page) {
    && |p.images| == |p.fileList| <= MaxImages
    && forall i :: 0 <= i < |p.images| ==> p.images[i] == ObjectUrl(p.fileList[i])
  }

  /** A video preview is shown exactly for the selected video. */
  predicate VideoInStep(p: Page) {
    match p.videoFile
    case None => p.videoPreview.None?
    case Some(file) => p.videoPreview == Some(ObjectUrl(file))
  }

  /** Every state invariant of the page. */
  predicate Valid(p: Page) {
    ImagesInStep(p) && VideoInStep(p) && Tags.WellFormed(p.tags.tags)
  }

  lemma InitialIsValid()
    ensures Valid(Initial)
    ensures Initial.fields[CategoryField] == "" && Initial.fields[SubcategoryField] == ""
  {
  }

  // ---------------------------------------------------------------------
  // Text fields and tags

  /** `handleInputChange`: writes one field and nothing else. */
  function HandleInputChange(p: Page, field: string, value: string): (r: Page)
    ensures field in r.fields && r.fields[field] == value
    ensures forall k :: k != field ==> (k in r.fields <==> k in p.fields)
    ensures forall k :: k != field && k in p.fields ==> r.fields[k] == p.fields[k]
    ensures r == p.(fields := r.fields)
  {
    p.(fields := p.fields[field := value])
  }

  /** `addTag`, by the rules shared with the product form. */
  function AddTag(p: Page): (r: Page)
    ensures r == p.(tags := Tags.AddTag(p.tags))
    ensures Valid(p) ==> Valid(r)
  {
    p.(tags := Tags.AddTag(p.tags))
  }

  /** `removeTag`, by the rules shared with the product form. */
  function RemoveTag(p: Page, t: string): (r: Page)
    ensures r.tags.current == p.tags.current && r == p.(tags := r.tags)
    ensures forall x :: x in r.tags.tags <==> x in p.tags.tags && x != t
    ensures Valid(p) ==> Valid(r)
  {
    p.(tags := Tags.TagInput(Tags.RemoveTag(p.tags.tags, t), p.tags.current))
  }

  // ---------------------------------------------------------------------
  // Images

  /** `handleImageChange`: a selection is taken whole, or not at all when it
      would bring the count over the limit; no selection changes nothing.
      Each accepted file gets a preview URL. */
  function HandleImageChange(p: Page, files: Option<seq<File>>): (r: Page)
    ensures files.None? ==> r == p
    ensures files.Some? && |p.images| + |files.value| > MaxImages ==> r == p
    ensures files.Some? && |p.images| + |files.value| <= MaxImages ==>
              && r.fileList == p.fileList + files.value
              && |r.images| == |p.images| + |files.value| && r.images[..|p.images|] == p.images
              && forall i :: 0 <= i < |files.value| ==> r.images[|p.images| + i] == ObjectUrl(files.value[i])
    ensures r == p.(images := r.images, fileList := r.fileList)
    ensures ImagesInStep(p) ==> ImagesInStep(r)
  {
    match files
    case None => p
    case Some(selected) =>
      if |p.images| + |selected| > MaxImages then p
      else
        var previews := Previews(selected);
        var images := p.images + previews;
        assert images[..|p.images|] == p.images;
        p.(images := images, fileList := p.fileList + selected)
  }

  /** One preview URL per file, in order. */
  function Previews(files: seq<File>): (r: seq<ObjectUrl>)
    ensures |r| == |files| && forall i :: 0 <= i < |files| ==> r[i] == ObjectUrl(files[i])
  {
    if files == [] then [] else [ObjectUrl(files[0])] + Previews(files[1..])
  }

  /** The entries of `s` except position `index`; an index that names no
      position, or none at all, removes nothing. */
  function DropAt<T>(s: seq<T>, index: Option<int>): (r: seq<T>)
    ensures index.Some? && 0 <= index.value < |s| ==> r == s[..index.value] + s[index.value + 1..]
    ensures !(index.Some? && 0 <= index.value < |s|) ==> r == s
  {
    if index.Some? && 0 <= index.value < |s| then s[..index.value] + s[index.value + 1..] else s
  }

  /** `handleRemoveImage`: drops the given position from both lists. The URL
      argument is only revoked, which is not modelled. */
  function HandleRemoveImage(p: Page, url: ObjectUrl, index: Option<int>): (r: Page)
    ensures index.Some? && 0 <= index.value < |p.images| && |p.images| == |p.fileList| ==>
              && |r.images| == |p.images| - 1 && |r.fileList| == |p.fileList| - 1
              && r.images == p.images[..index.value] + p.images[index.value + 1..]
              && r.fileList == p.fileList[..index.value] + p.fileList[index.value + 1..]
    ensures !(index.Some? && 0 <= index.value < |p.images|) && |p.images| == |p.fileList| ==> r == p
    ensures r == p.(images := r.images, fileList := r.fileList)
    ensures ImagesInStep(p) ==> ImagesInStep(r)
  {
    DropAtKeepsStep(p, index);
    p.(images := DropAt(p.images, index), fileList := DropAt(p.fileList, index))
  }

  /** Dropping the same position from both lists keeps them in step. */
  lemma DropAtKeepsStep(p: Page, index: Option<int>)
    ensures ImagesInStep(p) ==>
              ImagesInStep(p.(images := DropAt(p.images, index), fileList := DropAt(p.fileList, index)))
  {
    if ImagesInStep(p) && index.Some? && 0 <= index.value < |p.images| {
      var k := index.value;
      var images, files := DropAt(p.images, index), DropAt(p.fileList, index);
      forall i | 0 <= i < |images| ensures images[i] == ObjectUrl(files[i]) {
        if i < k {
          assert images[i] == p.images[i] && files[i] == p.fileList[i];
        } else {
          assert images[i] == p.images[i + 1] && files[i] == p.fileList[i + 1];
        }
      }
    }
  }

  /** The remove button of image `i` as the page wires it: the URL is passed
      but the index is not, so the filter keeps every position. */
  function RemoveImageButtonAsWritten(p: Page, i: nat): (r: Page)
    requires i < |p.images|
    ensures ImagesInStep(p) ==> r == p
  {
    HandleRemoveImage(p, p.images[i], None)
  }

  /** The remove button as evidently intended: it passes its own index. */
  function RemoveImageButton(p: Page, i: nat): (r: Page)
    requires i < |p.images|
    ensures ImagesInStep(p) ==>
              && ImagesInStep(r) && |r.images| == |p.images| - 1
              && r.fileList == p.fileList[..i] + p.fileList[i + 1..]
  {
    HandleRemoveImage(p, p.images[i], Some(i))
  }

  /** With the button as written, a page holding the maximum number of images
      can neither remove one nor add another: the image list is stuck. */
  lemma FullImageListIsStuck(p: Page, i: nat, files: Option<seq<File>>)
    requires ImagesInStep(p) && |p.images| == MaxImages && i < |p.images|
    requires files.Some? ==> |files.value| > 0
    ensures RemoveImageButtonAsWritten(p, i).images == p.images
    ensures HandleImageChange(p, files).images == p.images
  {
  }

  /** With the corrected button, every image can be removed one at a time. */
  lemma CorrectedButtonEmpties(p: Page)
    requires ImagesInStep(p)
    ensures |p.images| > 0 ==> |RemoveImageButton(p, 0).images| < |p.images|
  {
  }

  // ---------------------------------------------------------------------
  // Video

  /** `handleVideoChange`: the first selected file becomes the video unless
      it is larger than 5 MiB; no file changes nothing. */
  function HandleVideoChange(p: Page, files: Option<seq<File>>): (r: Page)
    ensures (files.None? || files.value == []) ==> r == p
    ensures files.Some? && files.value != [] && files.value[0].size > MaxVideoBytes ==> r == p
    ensures files.Some? && files.value != [] && files.value[0].size <= MaxVideoBytes ==>
              r == p.(videoFile := Some(files.value[0]), videoPreview := Some(ObjectUrl(files.value[0])))
    ensures r.videoFile.Some? ==> r.videoFile.value.size <= MaxVideoBytes || r.videoFile == p.videoFile
    ensures VideoInStep(p) ==> VideoInStep(r)
  {
    match files
    case None => p
    case Some(selected) =>
      if selected == [] then p
      else
        var file := selected[0];
        if file.size > MaxVideoBytes then p
        else p.(videoFile := Some(file), videoPreview := Some(ObjectUrl(file)))
  }

  /** The size gate is inclusive: a video of exactly 5 MiB is accepted, one
      byte more is not. */
  lemma VideoLimitIsInclusive(p: Page, id: nat)
    ensures HandleVideoChange(p, Some([File(id, 5242880)])).videoFile == Some(File(id, 5242880))
    ensures HandleVideoChange(p, Some([File(id, 5242881)])) == p
  {
  }

  /** `handleRemoveVideo`: no video and no preview afterwards. */
  function HandleRemoveVideo(p: Page): (r: Page)
    ensures r.videoFile.None? && r.videoPreview.None?
    ensures VideoInStep(r)
    ensures r == p.(videoFile := None, videoPreview := None)
  {
    p.(videoFile := None, videoPreview := None)
  }

  // ---------------------------------------------------------------------
  // Categories

  /** The categories the select offers. */
  const MockCategories := ["Industrial Machinery", "Construction Equipment", "Agricultural Tools",
                           "Manufacturing Equipment", "Packaging Machinery"]

  /** The subcategory table, in declaration order. */
  const SubcategoryTable: Record<seq<string>> := [
    ("Industrial Machinery", ["CNC Machines", "Lathes", "Drills"]),
    ("Construction Equipment", ["Excavators", "Cranes", "Loaders"]),
    ("Agricultural Tools", ["Tractors", "Ploughs", "Harvesters"]),
    ("Manufacturing Equipment", ["Conveyors", "Welding Machines"]),
    ("Packaging Machinery", ["Filling Machines", "Labeling Machines", "Sealing Machines"])
  ]

  /** The subcategory select's items: none while no category is chosen, the
      table's list for a category it knows, and `None` for any other
      category, which makes rendering throw: a missing entry is `undefined`,
      and no member inherited from `Object.prototype` has a `map`. */
  function SubcategoryOptions(category: string): (r: Option<seq<string>>)
    ensures category == "" ==> r == Some([])
    ensures category != "" ==> (r.Some? <==> category in Keys(SubcategoryTable))
    ensures category != "" && r.Some? ==> (category, r.value) in SubcategoryTable
  {
    if category == "" then Some([])
    else match ReadProperty(SubcategoryTable, category)
      case Own(list) => Some(list)
      case _ => None
  }

  /** Every category the select offers has a non-empty subcategory list, so
      choosing from the select never makes rendering throw. */
  lemma OfferedCategoriesHaveSubcategories(category: string)
    requires category in MockCategories
    ensures SubcategoryOptions(category).Some? && |SubcategoryOptions(category).value| > 0
  {
    TableShape();
    var i :| 0 <= i < |MockCategories| && MockCategories[i] == category;
    assert SubcategoryTable[i].0 == category;
    LookupOfDistinct(SubcategoryTable, i);
  }

  lemma TableShape()
    ensures DistinctKeys(SubcategoryTable) && |SubcategoryTable| == |MockCategories|
    ensures forall i :: 0 <= i < |SubcategoryTable| ==>
              SubcategoryTable[i].0 == MockCategories[i] && |SubcategoryTable[i].1| > 0
  {
  }

  /** The chosen subcategory belongs to the chosen category, or none is
      chosen. */
  predicate SubcategoryConsistent(p: Page) {
    var category := if CategoryField in p.fields then p.fields[CategoryField] else "";
    var sub := if SubcategoryField in p.fields then p.fields[SubcategoryField] else "";
    sub == "" || (category != "" && SubcategoryOptions(category).Some? && sub in SubcategoryOptions(category).value)
  }

  /** The category select as the page wires it: it writes the category and
      leaves the subcategory as it was. */
  function SelectCategoryAsWritten(p: Page, category: string): (r: Page)
    ensures CategoryField in r.fields && r.fields[CategoryField] == category
    ensures SubcategoryField in p.fields ==> SubcategoryField in r.fields && r.fields[SubcategoryField] == p.fields[SubcategoryField]
  {
    HandleInputChange(p, CategoryField, category)
  }

  /** The category select as evidently intended: a new category clears the
      subcategory, as the product form's `handleCategoryChange` does. */
  function SelectCategory(p: Page, category: string): (r: Page)
    ensures CategoryField in r.fields && r.fields[CategoryField] == category
    ensures SubcategoryField in r.fields && r.fields[SubcategoryField] == ""
    ensures forall k :: k != CategoryField && k != SubcategoryField ==>
              (k in r.fields <==> k in p.fields) && (k in p.fields ==> r.fields[k] == p.fields[k])
    ensures SubcategoryConsistent(r)
  {
    HandleInputChange(HandleInputChange(p, CategoryField, category), SubcategoryField, "")
  }

  /** The subcategory select writes one of the items it offers. */
  function SelectSubcategory(p: Page, sub: string): (r: Page)
    ensures SubcategoryField in r.fields && r.fields[SubcategoryField] == sub
    ensures SubcategoryConsistent(p) && CategoryField in p.fields && p.fields[CategoryField] != "" &&
            SubcategoryOptions(p.fields[CategoryField]).Some? && sub in SubcategoryOptions(p.fields[CategoryField]).value ==>
              SubcategoryConsistent(r)
  {
    HandleInputChange(p, SubcategoryField, sub)
  }

  /** As written, switching category keeps a subcategory of the old one:
      from any page, choosing "Lathes" under "Industrial Machinery" and then
      switching to "Construction Equipment" leaves "Lathes" selected, which
      the new category does not offer. */
  lemma StaleSubcategoryAsWritten(p: Page)
    ensures var q := SelectSubcategory(SelectCategory(p, "Industrial Machinery"), "Lathes");
            && SubcategoryConsistent(q)
            && !SubcategoryConsistent(SelectCategoryAsWritten(q, "Construction Equipment"))
  {
    var q := SelectSubcategory(SelectCategory(p, "Industrial Machinery"), "Lathes");
    LathesIsConsistent(p);
    LathesTurnsStale(q);
  }

  lemma LathesIsConsistent(p: Page)
    ensures SubcategoryConsistent(SelectSubcategory(SelectCategory(p, "Industrial Machinery"), "Lathes"))
  {
    OptionsOf(0);
  }

  lemma LathesTurnsStale(q: Page)
    requires SubcategoryField in q.fields && q.fields[SubcategoryField] == "Lathes"
    ensures !SubcategoryConsistent(SelectCategoryAsWritten(q, "Construction Equipment"))
  {
    OptionsOf(1);
    var stale := SelectCategoryAsWritten(q, "Construction Equipment");
    assert stale.fields[CategoryField] == "Construction Equipment";
    assert stale.fields[SubcategoryField] == "Lathes";
  }

  /** A category of the table offers exactly its own entry. */
  lemma OptionsOf(i: nat)
    requires i < |SubcategoryTable|
    ensures SubcategoryOptions(SubcategoryTable[i].0) == Some(SubcategoryTable[i].1)
  {
    TableShape();
    LookupOfDistinct(SubcategoryTable, i);
  }

  // ---------------------------------------------------------------------
  // Submitting

  /** How `handleSubmit` begins: refused when nobody is signed in, otherwise
      the page enters its loading state and the upload starts. */
  datatype SubmitStart = Refused | Started(page: Page)

  function BeginSubmit(p: Page, user: Option<User>): (r: SubmitStart)
    ensures r.Refused? <==> user.None?
    ensures r.Started? ==> r.page == p.(loading := true)
  {
    if user.None? then Refused else Started(p.(loading := true))
  }

  // ---------------------------------------------------------------------
  // Events

  /** The page's events: the remove button and the category select both as
      written and as corrected. */
  datatype Event =
    | Input(field: string, value: string)
    | ChooseCategory(category: string)
    | ChooseCategoryAsWritten(category: string)
    | ChooseSubcategory(sub: string)
    | TypeTag(text: string)
    | AddTagEvent
    | RemoveTagEvent(tag: string)
    | ChooseImages(files: Option<seq<File>>)
    | RemoveImageAt(index: nat)
    | RemoveImageAsWritten(index: nat)
    | ChooseVideo(videoFiles: Option<seq<File>>)
    | RemoveVideo

  function Apply(p: Page, e: Event): Page {
    match e
    case Input(field, value) => HandleInputChange(p, field, value)
    case ChooseCategory(category) => SelectCategory(p, category)
    case ChooseCategoryAsWritten(category) => SelectCategoryAsWritten(p, category)
    case ChooseSubcategory(sub) => SelectSubcategory(p, sub)
    case TypeTag(text) => p.(tags := p.tags.(current := text))
    case AddTagEvent => AddTag(p)
    case RemoveTagEvent(tag) => RemoveTag(p, tag)
    case ChooseImages(files) => HandleImageChange(p, files)
    case RemoveImageAt(index) => if index < |p.images| then RemoveImageButton(p, index) else p
    case RemoveImageAsWritten(index) => if index < |p.images| then RemoveImageButtonAsWritten(p, index) else p
    case ChooseVideo(files) => HandleVideoChange(p, files)
    case RemoveVideo => HandleRemoveVideo(p)
  }

  /** Every event sequence from the initial page keeps the images in step
      with the files, at most five of them, the video preview in step with
      the video, and the tag list duplicate-free and free of blank entries. */
  lemma {:induction false} EventsKeepValid(p: Page, events: seq<Event>)
    requires Valid(p)
    ensures Valid(ApplyAll(p, events))
    decreases |events|
  {
    if events != [] {
      ApplyKeepsValid(p, events[0]);
      EventsKeepValid(Apply(p, events[0]), events[1..]);
    }
  }

  lemma ApplyKeepsValid(p: Page, e: Event)
    requires Valid(p)
    ensures Valid(Apply(p, e))
  {
  }

  function ApplyAll(p: Page, events: seq<Event>): Page
    decreases |events|
  {
    if events == [] then p else ApplyAll(Apply(p, events[0]), events[1..])
  }
}

=== FILE: js.dfy ===
/** The slice of the JavaScript runtime the client code leans on: null-or-value,
    throwing calls, loosely typed values, String.prototype.trim, parseInt,
    Number.prototype.toString, object-literal lookup tables and browser files. */
module Js {

  /** `null`/`undefined` versus a present value. */
  datatype Option<+T> = None | Some(value: T) {
    function GetOr(default: T): T {
      match this
      case Some(v) => v
      case None => default
    }
  }

  /** A call either returns a value or throws an error. */
  datatype Result<+T, +E> = Ok(value: T) | Thrown(error: E)

  /** A browser `File`: only its identity and its size in bytes matter here. */
  datatype File = File(id: nat, size: nat)

  /** The `blob:` URL `URL.createObjectURL` hands out for a file. */
  datatype ObjectUrl = ObjectUrl(file: File)

  /** The values a form payload field can hold. */
  datatype Value = Undefined | Null | Str(s: string) | Num(n: int) | NaN | StrList(items: seq<string>)

  /** A plain object as its own enumerable entries, in insertion order. */
  type Document = seq<(string, Value)>

  /** An object literal mapping names to values, in declaration order. */
  type Record<V> = seq<(string, V)>

  // ---------------------------------------------------------------------
  // Object literals

  /** The own property `key` of an object literal. The records this model
      builds have distinct keys (`DistinctKeys`), as the literals they stand
      for do; on a record with repeats the first entry would win, where an
      object literal keeps the last. */
  function Lookup<V>(record: Record<V>, key: string): (r: Option<V>)
    ensures r.Some? <==> key in Keys(record)
    ensures r.Some? ==> (key, r.value) in record
  {
    if record == [] then None
    else if record[0].0 == key then Some(record[0].1)
    else Lookup(record[1..], key)
  }

  /** No key occurs twice, as in an object literal. */
  predicate DistinctKeys<V>(record: Record<V>) {
    forall i, j :: 0 <= i < j < |record| ==> record[i].0 != record[j].0
  }

  /** In a record without repeated keys, looking up an entry's key finds
      that entry's value. */
  lemma {:induction false} LookupOfDistinct<V>(record: Record<V>, i: int)
    requires DistinctKeys(record) && 0 <= i < |record|
    ensures Lookup(record, record[i].0) == Some(record[i].1)
  {
    if i > 0 {
      assert record[0].0 != record[i].0;
      assert record[1..][i - 1] == record[i];
      LookupOfDistinct(record[1..], i - 1);
    }
  }

  /** `Object.keys(record)`. */
  function Keys<V>(record: Record<V>): (r: seq<string>)
    ensures |r| == |record|
    ensures forall i :: 0 <= i < |r| ==> r[i] == record[i].0
  {
    if record == [] then [] else [record[0].0] + Keys(record[1..])
  }

  /** The members every object inherits from `Object.prototype` (section
      20.1.3 of ECMA-262 and the legacy accessors of its annex B.2.2), each
      with what reading `length` on it gives: the declared parameter count of
      the method, or `None` for `__proto__`, which reads as `Object.prototype`
      itself and has no `length`. */
  const ObjectPrototypeMembers: map<string, Option<nat>> := map[
    "constructor" := Some(1),
    "hasOwnProperty" := Some(1),
    "isPrototypeOf" := Some(1),
    "propertyIsEnumerable" := Some(1),
    "toLocaleString" := Some(0),
    "toString" := Some(0),
    "valueOf" := Some(0),
    "__defineGetter__" := Some(2),
    "__defineSetter__" := Some(2),
    "__lookupGetter__" := Some(1),
    "__lookupSetter__" := Some(1),
    "__proto__" := None
  ]

  /** What `record[key]` reads on an object literal: its own entry, else a
      member inherited from `Object.prototype`, else `undefined`. */
  datatype Property<V> = Own(value: V) | Inherited(length: Option<nat>) | Missing

  function ReadProperty<V>(record: Record<V>, key: string): (r: Property<V>)
    ensures r.Own? <==> key in Keys(record)
    ensures r.Own? ==> (key, r.value) in record
    ensures r.Inherited? <==> key !in Keys(record) && key in ObjectPrototypeMembers
    ensures r.Inherited? ==> r.length == ObjectPrototypeMembers[key]
  {
    match Lookup(record, key)
    case Some(v) => Own(v)
    case None => if key in ObjectPrototypeMembers then Inherited(ObjectPrototypeMembers[key]) else Missing
  }

  // ---------------------------------------------------------------------
  // Strings

  /** The WhiteSpace and LineTerminator code points of ECMAScript (sections
      12.2 and 12.3 of ECMA-262): what `trim` strips and `parseInt` skips. */
  predicate IsWhitespace(c: char) {
    || c == '\t' || c == '\U{000B}' || c == '\U{000C}' || c == ' '
    || c == '\U{00A0}' || c == '\U{FEFF}' || c == '\U{1680}'
    || ('\U{2000}' <= c <= '\U{200A}') || c == '\U{202F}' || c == '\U{205F}' || c == '\U{3000}'
    || c == '\n' || c == '\r' || c == '\U{2028}' || c == '\U{2029}'
  }

  predicate AllWhitespace(s: string) {
    forall i :: 0 <= i < |s| ==> IsWhitespace(s[i])
  }

  /** No whitespace at either end: what `trim` returns. */
  predicate IsTrimmed(s: string) {
    s == [] || (!IsWhitespace(s[0]) && !IsWhitespace(s[|s| - 1]))
  }

  /** Drops leading whitespace: the longest suffix that does not start with whitespace. */
  function TrimStart(s: string): (r: string)
    ensures |r| <= |s| && r == s[|s| - |r|..]
    ensures AllWhitespace(s[..|s| - |r|])
    ensures r == [] || !IsWhitespace(r[0])
  {
    if s != [] && IsWhitespace(s[0]) then
      var r := TrimStart(s[1..]);
      WhitespacePrefixStep(s, |s[1..]| - |r|);
      r
    else
      s
  }

  /** Drops trailing whitespace: the longest prefix that does not end in whitespace. */
  function TrimEnd(s: string): (r: string)
    ensures |r| <= |s| && r == s[..|r|]
    ensures AllWhitespace(s[|r|..])
    ensures r == [] || !IsWhitespace(r[|r| - 1])
  {
    if s != [] && IsWhitespace(s[|s| - 1]) then
      var r := TrimEnd(s[..|s| - 1]);
      WhitespaceSuffixStep(s, |r|);
      r
    else
      s
  }

  /** One more leading whitespace character extends a whitespace prefix. */
  lemma WhitespacePrefixStep(s: string, k: nat)
    requires k < |s| && IsWhitespace(s[0]) && AllWhitespace(s[1..][..k])
    ensures AllWhitespace(s[..k + 1]) && s[1..][k..] == s[k + 1..]
  {
    assert s[..k + 1] == [s[0]] + s[1..][..k];
  }

  /** One more trailing whitespace character extends a whitespace suffix. */
  lemma WhitespaceSuffixStep(s: string, n: nat)
    requires n < |s| && IsWhitespace(s[|s| - 1]) && AllWhitespace(s[..|s| - 1][n..])
    ensures AllWhitespace(s[n..]) && s[..|s| - 1][..n] == s[..n]
  {
    assert s[n..] == s[..|s| - 1][n..] + [s[|s| - 1]];
  }

  /** `String.prototype.trim`: `s` with whitespace removed from both ends. */
  function Trim(s: string): (r: string)
    ensures IsTrimmed(r)
    ensures |r| <= |s|
  {
    TrimEnd(TrimStart(s))
  }

  /** What `trim` removes is whitespace: its result is the middle of `s`,
      between a whitespace-only prefix and a whitespace-only suffix. */
  lemma TrimIsInfix(s: string) returns (i: nat)
    ensures i + |Trim(s)| <= |s| && Trim(s) == s[i..i + |Trim(s)|]
    ensures AllWhitespace(s[..i]) && AllWhitespace(s[i + |Trim(s)|..])
  {
    var t := TrimStart(s);
    var r := TrimEnd(t);
    i := |s| - |t|;
    SliceOfSuffix(s, i, |r|);
  }

  /** A prefix of a suffix is a slice, and what follows it is a suffix. */
  lemma SliceOfSuffix(s: string, i: nat, n: nat)
    requires i + n <= |s|
    ensures s[i..][..n] == s[i..i + n] && s[i..][n..] == s[i + n..]
  {
  }

  lemma {:induction false} TrimStartOfPadded(a: string, m: string)
    requires AllWhitespace(a)
    requires m == [] || !IsWhitespace(m[0])
    ensures TrimStart(a + m) == m
  {
    if a != [] {
      assert (a + m)[1..] == a[1..] + m;
      TrimStartOfPadded(a[1..], m);
    } else {
      assert a + m == m;
    }
  }

  lemma {:induction false} TrimEndOfPadded(m: string, b: string)
    requires AllWhitespace(b)
    requires m == [] || !IsWhitespace(m[|m| - 1])
    ensures TrimEnd(m + b) == m
  {
    if b != [] {
      assert (m + b)[..|m + b| - 1] == m + b[..|b| - 1];
      TrimEndOfPadded(m, b[..|b| - 1]);
    } else {
      assert m + b == m;
    }
  }

  /** `trim` is characterised independently of how it is computed: whatever
      whitespace surrounds a string with non-whitespace ends, `trim` gives that
      string back. */
  lemma TrimOfPadded(a: string, m: string, b: string)
    requires AllWhitespace(a) && AllWhitespace(b)
    requires IsTrimmed(m)
    ensures Trim(a + m + b) == m
  {
    if m == [] {
      assert a + m + b == a + b;
      assert AllWhitespace(a + b);
      TrimStartOfPadded(a + b, []);
      assert a + b + [] == a + b;
    } else {
      assert a + m + b == a + (m + b);
      TrimStartOfPadded(a, m + b);
      TrimEndOfPadded(m, b);
    }
  }

  lemma WhitespaceConcat(x: string, y: string)
    requires AllWhitespace(x) && AllWhitespace(y)
    ensures AllWhitespace(x + y)
  {
  }

  lemma Regroup(a: string, s: string, b: string, i: nat, n: nat)
    requires i + n <= |s|
    ensures a + s + b == (a + s[..i]) + s[i..i + n] + (s[i + n..] + b)
  {
    assert s == s[..i] + s[i..i + n] + s[i + n..];
  }

  /** Extra whitespace around any string does not change what `trim` gives. */
  lemma TrimIgnoresPadding(a: string, s: string, b: string)
    requires AllWhitespace(a) && AllWhitespace(b)
    ensures Trim(a + s + b) == Trim(s)
  {
    var i := TrimIsInfix(s);
    TrimOfPaddedInfix(a, s, b, i, Trim(s));
  }

  /** A trimmed middle of `s` is what `trim` gives for `s` padded further. */
  lemma TrimOfPaddedInfix(a: string, s: string, b: string, i: nat, m: string)
    requires AllWhitespace(a) && AllWhitespace(b) && IsTrimmed(m)
    requires i + |m| <= |s| && m == s[i..i + |m|]
    requires AllWhitespace(s[..i]) && AllWhitespace(s[i + |m|..])
    ensures Trim(a + s + b) == m
  {
    Regroup(a, s, b, i, |m|);
    WhitespaceConcat(a, s[..i]);
    WhitespaceConcat(s[i + |m|..], b);
    TrimOfRegrouped(a + s + b, a + s[..i], m, s[i + |m|..] + b);
  }

  lemma TrimOfRegrouped(p: string, x: string, m: string, y: string)
    requires p == x + m + y && AllWhitespace(x) && AllWhitespace(y) && IsTrimmed(m)
    ensures Trim(p) == m
  {
    TrimOfPadded(x, m, y);
  }

  /** A string without whitespace at either end is its own trim. */
  lemma TrimOfTrimmed(s: string)
    requires IsTrimmed(s)
    ensures Trim(s) == s
  {
    assert [] + s + [] == s;
    TrimOfPadded([], s, []);
  }

  /** Trimming twice is trimming once. */
  lemma TrimIdempotent(s: string)
    ensures Trim(Trim(s)) == Trim(s)
  {
    var m := Trim(s);
    assert [] + m + [] == m;
    TrimOfPadded([], m, []);
  }

  /** A whitespace-only string trims to the empty string. */
  lemma TrimOfWhitespace(s: string)
    requires AllWhitespace(s)
    ensures Trim(s) == []
  {
    assert s + [] + [] == s;
    TrimOfPadded(s, [], []);
  }

  /** `!s.trim()`: `trim` leaves nothing exactly when `s` is whitespace only. */
  lemma TrimEmptyIffBlank(s: string)
    ensures Trim(s) == [] <==> AllWhitespace(s)
  {
    var i := TrimIsInfix(s);
    if AllWhitespace(s) {
      TrimOfWhitespace(s);
    }
  }

  /** `Array.prototype.join` with the default `","` separator, on strings. */
  function Join(items: seq<string>): (r: string)
    ensures items == [] ==> r == []
    ensures |items| == 1 ==> r == items[0]
  {
    if items == [] then []
    else if |items| == 1 then items[0]
    else items[0] + "," + Join(items[1..])
  }

  // ---------------------------------------------------------------------
  // Numbers

  predicate IsDecimalDigit(c: char) {
    '0' <= c <= '9'
  }

  predicate IsHexDigit(c: char) {
    IsDecimalDigit(c) || 'a' <= c <= 'f' || 'A' <= c <= 'F'
  }

  function DigitOf(c: char): (d: nat)
    requires IsHexDigit(c)
    ensures d < 16
    ensures d < 10 <==> IsDecimalDigit(c)
  {
    if IsDecimalDigit(c) then (c as int) - ('0' as int)
    else if 'a' <= c <= 'f' then (c as int) - ('a' as int) + 10
    else (c as int) - ('A' as int) + 10
  }

  /** The character `parseInt` reads as the digit `d` in radix 10. */
  function DigitChar(d: nat): (c: char)
    requires d < 10
    ensures IsDecimalDigit(c) && DigitOf(c) == d
  {
    (('0' as int) + d) as char
  }

  predicate IsRadixDigit(c: char, radix: nat) {
    IsHexDigit(c) && DigitOf(c) < radix
  }

  predicate AllRadixDigits(s: string, radix: nat) {
    forall i :: 0 <= i < |s| ==> IsRadixDigit(s[i], radix)
  }

  /** The longest prefix of `s` made of digits of `radix`. */
  function DigitPrefix(s: string, radix: nat): (r: string)
    ensures |r| <= |s| && r == s[..|r|]
    ensures AllRadixDigits(r, radix)
    ensures |r| == |s| || !IsRadixDigit(s[|r|], radix)
  {
    if s != [] && IsRadixDigit(s[0], radix) then [s[0]] + DigitPrefix(s[1..], radix) else []
  }

  /** The number a string of digits denotes, most significant digit first. */
  function DigitsValue(s: string, radix: nat): nat
    requires AllRadixDigits(s, radix)
  {
    if s == [] then 0 else DigitsValue(s[..|s| - 1], radix) * radix + DigitOf(s[|s| - 1])
  }

  /** `parseInt(s)` with no radix (section 19.2.5 of ECMA-262): skip leading
      whitespace, read an optional sign, take a `0x`/`0X` prefix as radix 16,
      then read as many digits as there are; no digit at all gives `NaN`. */
  function ParseInt(input: string): (r: Value)
    ensures r.Num? || r.NaN?
    ensures AllWhitespace(input) ==> r == NaN
  {
    ParseSigned(TrimStart(input))
  }

  /** `parseInt` once the leading whitespace is gone. */
  function ParseSigned(s: string): (r: Value)
    ensures r.Num? || r.NaN?
  {
    var negative := s != [] && s[0] == '-';
    var unsigned := if s != [] && (s[0] == '-' || s[0] == '+') then s[1..] else s;
    ParseUnsigned(negative, unsigned)
  }

  /** `parseInt` once the sign is read: the radix prefix, then the digits. */
  function ParseUnsigned(negative: bool, unsigned: string): (r: Value)
    ensures r.Num? || r.NaN?
  {
    var hex := |unsigned| >= 2 && unsigned[0] == '0' && (unsigned[1] == 'x' || unsigned[1] == 'X');
    var radix := if hex then 16 else 10;
    var body := if hex then unsigned[2..] else unsigned;
    var digits := DigitPrefix(body, radix);
    if digits == [] then NaN
    else if negative then Num(0 - DigitsValue(digits, radix))
    else Num(DigitsValue(digits, radix))
  }

  /** Decimal digits of `n` with no leading zero. */
  function NatToString(n: nat): (r: string)
    ensures |r| >= 1
    ensures AllRadixDigits(r, 10)
    ensures forall i :: 0 <= i < |r| ==> IsDecimalDigit(r[i])
    ensures r[0] == '0' ==> n == 0
  {
    if n < 10 then [DigitChar(n)] else NatToString(n / 10) + [DigitChar(n % 10)]
  }

  /** The magnitude from which `Number.prototype.toString()` switches to
      exponent form: Number::toString (section 6.1.6.1.20 of ECMA-262) writes
      plain decimal only while the decimal point falls at most 21 digits in. */
  const ExponentThreshold: nat := 1_000_000_000_000_000_000_000

  /** `s` without the zeros at its end. */
  function StripTrailingZeros(s: string): (r: string)
    ensures |r| <= |s| && r == s[..|r|]
    ensures r == [] || r[|r| - 1] != '0'
  {
    if s == [] || s[|s| - 1] != '0' then s else StripTrailingZeros(s[..|s| - 1])
  }

  /** The exponent form of a magnitude: its first significant digit, the other
      significant digits after a point when there are any, then `e+` and the
      power of ten. */
  function ExponentForm(m: nat): (r: string)
    requires m >= 10
    ensures |r| >= 2 && r[0] == NatToString(m)[0] && (r[1] == '.' || r[1] == 'e')
  {
    var digits := NatToString(m);
    var fraction := StripTrailingZeros(digits[1..]);
    [digits[0]] + (if fraction == [] then "" else "." + fraction) + "e+" + NatToString(|digits| - 1)
  }

  /** `Number.prototype.toString()` on an integral number: plain decimal below
      `ExponentThreshold` in magnitude, exponent form from there on. */
  function IntToString(n: int): (r: string)
    ensures |r| >= 1 && !IsWhitespace(r[0])
    ensures n < 0 <==> r[0] == '-'
  {
    var m: nat := if n < 0 then -n else n;
    var magnitude := if m < ExponentThreshold then NatToString(m) else ExponentForm(m);
    if n < 0 then "-" + magnitude else magnitude
  }

  /** The shape of `toString`'s text: below `ExponentThreshold` a non-negative
      number is all decimal digits with no leading zero; from there on the
      text starts with the leading digit, then a point or the exponent. */
  lemma IntToStringShape(n: int)
    ensures 0 <= n < ExponentThreshold ==>
              (forall i :: 0 <= i < |IntToString(n)| ==> IsDecimalDigit(IntToString(n)[i]))
              && (IntToString(n)[0] == '0' ==> n == 0)
    ensures n >= ExponentThreshold ==>
              |IntToString(n)| >= 2 && IntToString(n)[0] == NatToString(n)[0]
              && (IntToString(n)[1] == '.' || IntToString(n)[1] == 'e')
  {
  }

  /** The first digit of `m` written in decimal. */
  function LeadingDigit(m: nat): (d: nat)
    ensures d < 10
    ensures m > 0 ==> d > 0
    ensures m >= 10 ==> d < m
  {
    if m < 10 then m else LeadingDigit(m / 10)
  }

  lemma {:induction false} FirstCharOfNatToString(m: nat)
    ensures NatToString(m)[0] == DigitChar(LeadingDigit(m))
  {
    if m >= 10 {
      FirstCharOfNatToString(m / 10);
    }
  }

  lemma {:induction false} DigitsValueOfNatToString(n: nat)
    ensures DigitsValue(NatToString(n), 10) == n
  {
    var s := NatToString(n);
    if n >= 10 {
      assert s[..|s| - 1] == NatToString(n / 10);
      DigitsValueOfNatToString(n / 10);
    }
  }

  lemma {:induction false} DigitPrefixOfDigits(s: string, radix: nat)
    requires AllRadixDigits(s, radix)
    ensures DigitPrefix(s, radix) == s
  {
    if s != [] {
      DigitPrefixOfDigits(s[1..], radix);
    }
  }

  /** `parseInt` reads back what `toString` writes while the number is below
      `ExponentThreshold` in magnitude; from there on it stops at the point or
      the `e` of the exponent form and reads the leading digit alone. This is
      the round trip a form makes when it shows a stored number and submits it
      again. */
  lemma ParseIntOfIntToString(n: int)
    ensures -(ExponentThreshold as int) < n < ExponentThreshold ==> ParseInt(IntToString(n)) == Num(n)
    ensures n >= ExponentThreshold ==> ParseInt(IntToString(n)) == Num(LeadingDigit(n))
    ensures n <= -(ExponentThreshold as int) ==> ParseInt(IntToString(n)) == Num(0 - LeadingDigit(-n))
  {
    var m: nat := if n < 0 then -n else n;
    assert TrimStart(IntToString(n)) == IntToString(n);
    if m < ExponentThreshold {
      var digits := NatToString(m);
      DigitPrefixOfDigits(digits, 10);
      DigitsValueOfNatToString(m);
      if n < 0 { ParseSignedOfNegated(digits); }
      ParseUnsignedOfDigits(n < 0, digits);
    } else {
      ParseOfExponentForm(m);
      if n < 0 { ParseSignedOfNegated(ExponentForm(m)); }
      ParseUnsignedOfDigits(n < 0, ExponentForm(m));
    }
  }

  /** `parseInt` on a number text that starts with a decimal digit. */
  lemma ParseUnsignedOfDigits(negative: bool, magnitude: string)
    requires |magnitude| >= 1 && IsDecimalDigit(magnitude[0])
    requires !(|magnitude| >= 2 && (magnitude[1] == 'x' || magnitude[1] == 'X'))
    ensures negative ==> ParseUnsigned(negative, magnitude) == Num(0 - DigitsValue(DigitPrefix(magnitude, 10), 10))
    ensures !negative ==> ParseUnsigned(negative, magnitude) == Num(DigitsValue(DigitPrefix(magnitude, 10), 10))
  {
    assert IsRadixDigit(magnitude[0], 10);
    var digits := DigitPrefix(magnitude, 10);
    assert digits == [magnitude[0]] + DigitPrefix(magnitude[1..], 10);
  }

  /** The same text after a minus sign is read as the negated number. */
  lemma ParseSignedOfNegated(magnitude: string)
    requires |magnitude| >= 1 && IsDecimalDigit(magnitude[0])
    ensures ParseSigned("-" + magnitude) == ParseUnsigned(true, magnitude)
  {
    var t := "-" + magnitude;
    assert t[0] == '-' && t[1..] == magnitude;
  }

  /** The digits `parseInt` finds in an exponent form: the leading one only. */
  lemma ParseOfExponentForm(m: nat)
    requires m >= 10
    ensures DigitPrefix(ExponentForm(m), 10) == [ExponentForm(m)[0]]
    ensures DigitsValue([ExponentForm(m)[0]], 10) == LeadingDigit(m)
    ensures ExponentForm(m)[0] != '0'
  {
    var r := ExponentForm(m);
    FirstCharOfNatToString(m);
    assert !IsRadixDigit(r[1..][0], 10);
    assert DigitPrefix(r[1..], 10) == [];
    assert [r[0]][..0] == [];
  }

  /** `parseInt` ignores leading whitespace. */
  lemma {:induction false} ParseIntSkipsWhitespace(ws: string, s: string)
    requires AllWhitespace(ws)
    ensures ParseInt(ws + s) == ParseInt(s)
  {
    TrimStartAbsorbsWhitespace(ws, s);
  }

  lemma {:induction false} TrimStartAbsorbsWhitespace(ws: string, s: string)
    requires AllWhitespace(ws)
    ensures TrimStart(ws + s) == TrimStart(s)
  {
    if ws != [] {
      assert (ws + s)[1..] == ws[1..] + s;
      TrimStartAbsorbsWhitespace(ws[1..], s);
    } else {
      assert ws + s == s;
    }
  }

  // ---------------------------------------------------------------------
  // Conversions

  /** `String(v)`: how a value becomes form text. */
  function ToText(v: Value): (r: string)
    ensures v.Str? ==> r == v.s
    ensures v.Num? ==> |r| >= 1 && !IsWhitespace(r[0]) && (v.n < 0 <==> r[0] == '-')
    ensures v.StrList? && v.items == [] ==> r == []
    ensures v.StrList? && |v.items| == 1 ==> r == v.items[0]
  {
    match v
    case Undefined => "undefined"
    case Null => "null"
    case Str(s) => s
    case Num(n) => IntToString(n)
    case NaN => "NaN"
    case StrList(items) => Join(items)
  }

  /** A number sent as text is read back by `parseInt` as the same number,
      below the exponent-form threshold. */
  lemma NumberTextParsesBack(n: int)
    requires -(ExponentThreshold as int) < n < ExponentThreshold
    ensures ParseInt(ToText(Num(n))) == Num(n)
  {
    ParseIntOfIntToString(n);
  }

  /** Neither `undefined` nor `null`. */
  predicate IsPresent(v: Value) {
    !v.Undefined? && !v.Null?
  }
}

=== FILE: product_form.dfy ===
/** The create/edit product form: its fields, the category and subcategory
    choices, the tag list, the checks run on submit, the payload it sends and
    the choice between creating and updating. */
module ProductFormPage {
  import opened Js
  import opened ApiClient
  import Tags

  // ---------------------------------------------------------------------
  // Form state

  /** The form's fields. */
  datatype Form = Form(
    name: string,
    description: string,
    sortDescription: string,
    category: string,
    subcategory: string,
    priceRange: string,
    minOrderQuantity: string,
    countryOfOrigin: string,
    tags: seq<string>,
    certifications: string,
    images: seq<string>)

  const EmptyForm := Form("", "", "", "", "", "", "", "", [], "", [])

  /** The text fields an input writes through `handleInputChange`. */
  datatype Field =
    | Name | Description | SortDescription | Category | Subcategory
    | PriceRange | MinOrderQuantity | CountryOfOrigin | Certifications

  function Get(f: Form, field: Field): string {
    match field
    case Name => f.name
    case Description => f.description
    case SortDescription => f.sortDescription
    case Category => f.category
    case Subcategory => f.subcategory
    case PriceRange => f.priceRange
    case MinOrderQuantity => f.minOrderQuantity
    case CountryOfOrigin => f.countryOfOrigin
    case Certifications => f.certifications
  }

  /** The page: the form, the tag text box, and the server's category list. */
  datatype Page = Page(form: Form, currentTag: string, categories: seq<string>)

  const InitialPage := Page(EmptyForm, "", [])

  /** `handleInputChange`: writes one field and nothing else. */
  function HandleInputChange(f: Form, field: Field, value: string): (r: Form)
    ensures Get(r, field) == value
    ensures forall other :: other != field ==> Get(r, other) == Get(f, other)
    ensures r.tags == f.tags && r.images == f.images
  {
    match field
    case Name => f.(name := value)
    case Description => f.(description := value)
    case SortDescription => f.(sortDescription := value)
    case Category => f.(category := value)
    case Subcategory => f.(subcategory := value)
    case PriceRange => f.(priceRange := value)
    case MinOrderQuantity => f.(minOrderQuantity := value)
    case CountryOfOrigin => f.(countryOfOrigin := value)
    case Certifications => f.(certifications := value)
  }

  /** `handleCategoryChange`: sets the category and clears the subcategory,
      leaving every other field as it was. */
  function HandleCategoryChange(f: Form, value: string): (r: Form)
    ensures r.category == value && r.subcategory == ""
    ensures forall other :: other != Category && other != Subcategory ==> Get(r, other) == Get(f, other)
    ensures r.tags == f.tags && r.images == f.images
  {
    f.(category := value, subcategory := "")
  }

  /** `addTag` on the form's tag list. */
  function AddTag(p: Page): (r: Page)
    ensures r.categories == p.categories && r.form == p.form.(tags := r.form.tags)
    ensures Tags.TagInput(r.form.tags, r.currentTag) == Tags.AddTag(Tags.TagInput(p.form.tags, p.currentTag))
    ensures Tags.WellFormed(p.form.tags) ==> Tags.WellFormed(r.form.tags)
  {
    var t := Tags.AddTag(Tags.TagInput(p.form.tags, p.currentTag));
    Page(p.form.(tags := t.tags), t.current, p.categories)
  }

  /** `removeTag` on the form's tag list. */
  function RemoveTag(p: Page, tag: string): (r: Page)
    ensures r.currentTag == p.currentTag && r.categories == p.categories
    ensures r.form == p.form.(tags := r.form.tags)
    ensures forall t :: t in r.form.tags <==> t in p.form.tags && t != tag
    ensures Tags.WellFormed(p.form.tags) ==> Tags.WellFormed(r.form.tags)
  {
    p.(form := p.form.(tags := Tags.RemoveTag(p.form.tags, tag)))
  }

  // ---------------------------------------------------------------------
  // Categories

  /** The static category table, in declaration order. */
  const CategoryMap: Record<seq<string>> := [
    ("Industrial Machinery", ["CNC Machines", "Lathes", "Milling Machines"]),
    ("Construction Equipment", ["Excavators", "Cranes", "Loaders"]),
    ("Manufacturing Tools", ["Cutting Tools", "Welding Tools", "Hand Tools"]),
    ("Agricultural Equipment", ["Tractors", "Harvesters", "Sprayers"]),
    ("Electronics", ["Consumer Electronics", "Industrial Electronics", "Components"]),
    ("Automotive Parts", ["Engine Parts", "Brake Systems", "Transmission Parts"]),
    ("Textile Machinery", ["Knitting Machines", "Weaving Machines", "Sewing Machines"]),
    ("Food Processing", ["Mixers", "Packaging Machines", "Cutting Machines"])
  ]

  const OtherSubcategory := "Other"

  /** The category choices: the server's list when it has entries, else the
      static table's categories in order. */
  function CategoryOptions(server: seq<string>): (r: seq<string>)
    ensures |r| > 0
    ensures |server| > 0 ==> r == server
    ensures |server| == 0 ==> r == Keys(CategoryMap)
  {
    if |server| > 0 then server else Keys(CategoryMap)
  }

  /** The subcategory choices `table` gives a category, or `None` when
      rendering them throws: a non-empty entry of the table is offered as it
      is; a method inherited from `Object.prototype` whose `length` is
      positive passes the length test and then has no `map`; anything else,
      the empty category included, gets the single fallback "Other". The page
      reads `CategoryMap`. */
  function SubcategoryOptions(table: Record<seq<string>>, category: string): (r: Option<seq<string>>)
    ensures r.Some? ==> |r.value| > 0
    ensures r.Some? && r.value != [OtherSubcategory] ==> category in Keys(table)
    ensures r.None? ==> category !in Keys(table)
  {
    if category == "" then Some([OtherSubcategory])
    else match ReadProperty(table, category)
      case Own(list) => if |list| > 0 then Some(list) else Some([OtherSubcategory])
      case Inherited(length) => if length.Some? && length.value > 0 then None else Some([OtherSubcategory])
      case Missing => Some([OtherSubcategory])
  }

  /** An inherited name whose `length` is positive: choosing it as the
      category makes the subcategory list throw. */
  predicate Throwing(category: string) {
    category in ObjectPrototypeMembers && ObjectPrototypeMembers[category].Some?
    && ObjectPrototypeMembers[category].value > 0
  }

  /** Every category of the static table offers its own subcategories and
      never the fallback; an inherited method whose `length` is positive
      makes the list throw; any other category, the empty one included,
      offers exactly the fallback. */
  lemma SubcategoryOptionsCharacterised(category: string)
    ensures category in Keys(CategoryMap) ==>
              && SubcategoryOptions(CategoryMap, category).Some?
              && (category, SubcategoryOptions(CategoryMap, category).value) in CategoryMap
              && OtherSubcategory !in SubcategoryOptions(CategoryMap, category).value
    ensures category !in Keys(CategoryMap) && Throwing(category) ==> SubcategoryOptions(CategoryMap, category).None?
    ensures category !in Keys(CategoryMap) && !Throwing(category) ==>
              SubcategoryOptions(CategoryMap, category) == Some([OtherSubcategory])
  {
    if category in Keys(CategoryMap) {
      CategoryTableShape();
      var i :| 0 <= i < |CategoryMap| && Keys(CategoryMap)[i] == category;
      LookupOfDistinct(CategoryMap, i);
      assert category != "";
      TableEntryOptions(CategoryMap, category);
    } else {
      OtherCategoryOptions(CategoryMap, category);
    }
  }

  /** A named category with a non-empty entry offers that entry. */
  lemma TableEntryOptions(table: Record<seq<string>>, category: string)
    requires category != "" && Lookup(table, category).Some? && |Lookup(table, category).value| > 0
    ensures SubcategoryOptions(table, category) == Some(Lookup(table, category).value)
  {
  }

  /** A category the table lacks throws exactly when it is `Throwing`. */
  lemma OtherCategoryOptions(table: Record<seq<string>>, category: string)
    requires category !in Keys(table)
    ensures Throwing(category) ==> SubcategoryOptions(table, category).None?
    ensures !Throwing(category) ==> SubcategoryOptions(table, category) == Some([OtherSubcategory])
  {
  }

  /** The table's categories are distinct and named, and each offers three
      subcategories, none of them the fallback. */
  lemma CategoryTableShape()
    ensures DistinctKeys(CategoryMap)
    ensures forall i :: 0 <= i < |CategoryMap| ==>
              CategoryMap[i].0 != "" && |CategoryMap[i].1| == 3 && OtherSubcategory !in CategoryMap[i].1
  {
  }

  /** `fetchCategories` of the form: the server list is kept only when the
      response reports success and carries `data`. */
  function ApplyCategories(p: Page, outcome: Result<Body<seq<string>>, ApiError>): (r: Page)
    ensures r.form == p.form && r.currentTag == p.currentTag
    ensures r.categories != p.categories ==>
              outcome.Ok? && outcome.value.Succeeded() && outcome.value.envelope.data == Some(r.categories)
    ensures outcome.Ok? && outcome.value.Succeeded() && outcome.value.envelope.data.Some? ==>
              r.categories == outcome.value.envelope.data.value
  {
    match outcome
    case Ok(body) =>
      if body.Succeeded() && body.envelope.data.Some? then p.(categories := body.envelope.data.value) else p
    case Thrown(_) => p
  }

  // ---------------------------------------------------------------------
  // Loading a product into the form

  /** The form a fetched product fills in: a missing text field becomes "",
      a missing list becomes [], and the minimum order quantity its decimal
      text. */
  function LoadProduct(product: Product): (r: Form)
    ensures product.name.Some? ==> r.name == product.name.value
    ensures product.name.None? ==> r.name == ""
    ensures product.tags.None? ==> r.tags == []
    ensures product.minOrderQuantity.None? <==> r.minOrderQuantity == ""
    ensures r.description == product.description.GetOr("")
    ensures r.sortDescription == product.sortDescription.GetOr("")
    ensures r.category == product.category.GetOr("")
    ensures r.subcategory == product.subcategory.GetOr("")
    ensures r.priceRange == product.priceRange.GetOr("")
    ensures product.minOrderQuantity.Some? ==> r.minOrderQuantity == IntToString(product.minOrderQuantity.value)
    ensures r.countryOfOrigin == product.countryOfOrigin.GetOr("")
    ensures r.tags == product.tags.GetOr([])
    ensures r.certifications == product.certifications.GetOr("")
    ensures r.images == product.images.GetOr([])
  {
    Form(
      product.name.GetOr(""),
      product.description.GetOr(""),
      product.sortDescription.GetOr(""),
      product.category.GetOr(""),
      product.subcategory.GetOr(""),
      product.priceRange.GetOr(""),
      if product.minOrderQuantity.Some? then IntToString(product.minOrderQuantity.value) else "",
      product.countryOfOrigin.GetOr(""),
      product.tags.GetOr([]),
      product.certifications.GetOr(""),
      product.images.GetOr([]))
  }

  /** `fetchProduct`: the form is replaced only by a successful response that
      carries a product; otherwise it is kept (the page then leaves on error). */
  function ApplyFetchedProduct(f: Form, outcome: Result<Body<Product>, ApiError>): (r: Form)
    ensures r != f ==> outcome.Ok? && outcome.value.Succeeded() && outcome.value.envelope.data.Some?
    ensures outcome.Ok? && outcome.value.Succeeded() && outcome.value.envelope.data.Some? ==>
              r == LoadProduct(outcome.value.envelope.data.value)
  {
    match outcome
    case Ok(body) =>
      if body.Succeeded() && body.envelope.data.Some? then LoadProduct(body.envelope.data.value) else f
    case Thrown(_) => f
  }

  // ---------------------------------------------------------------------
  // Submitting

  /** The submit-time checks, in the order they run. */
  datatype Check = NameRequired | DescriptionRequired | SortDescriptionRequired | CategoryRequired | SubcategoryRequired

  /** Whether one check fails: the three texts fail when trimming leaves
      nothing, that is when they are whitespace only (`Js.TrimEmptyIffBlank`);
      the two selections fail when empty. */
  predicate Fails(check: Check, f: Form) {
    match check
    case NameRequired => AllWhitespace(f.name)
    case DescriptionRequired => AllWhitespace(f.description)
    case SortDescriptionRequired => AllWhitespace(f.sortDescription)
    case CategoryRequired => f.category == ""
    case SubcategoryRequired => f.subcategory == ""
  }

  /** The position of a check in the order they run. */
  function Rank(check: Check): nat {
    match check
    case NameRequired => 0
    case DescriptionRequired => 1
    case SortDescriptionRequired => 2
    case CategoryRequired => 3
    case SubcategoryRequired => 4
  }

  /** The guard of `handleSubmit`: the first failing check, if any. */
  function Validate(f: Form): (r: Option<Check>)
    ensures r.None? ==> forall check :: !Fails(check, f)
    ensures r.Some? ==> Fails(r.value, f)
    ensures r.Some? ==> forall check :: Rank(check) < Rank(r.value) ==> !Fails(check, f)
  {
    if AllWhitespace(f.name) then Some(NameRequired)
    else if AllWhitespace(f.description) then Some(DescriptionRequired)
    else if AllWhitespace(f.sortDescription) then Some(SortDescriptionRequired)
    else if f.category == "" then Some(CategoryRequired)
    else if f.subcategory == "" then Some(SubcategoryRequired)
    else None
  }

  /** The minimum order quantity as sent: `undefined` for an empty field,
      otherwise what `parseInt` makes of it. */
  function MinOrderValue(text: string): (v: Value)
    ensures text == "" <==> v == Undefined
    ensures v != Undefined ==> v.Num? || v.NaN?
  {
    if text != "" then ParseInt(text) else Undefined
  }

  /** The names of the payload's fields, in order. */
  const PayloadKeys := ["name", "description", "sort_description", "category", "subcategory", "priceRange",
                        "minOrderQuantity", "countryOfOrigin", "tags", "certifications", "images"]

  /** Pairs names with values, in order. */
  function Entries(keys: seq<string>, values: seq<Value>): (d: Document)
    requires |keys| == |values|
    ensures |d| == |keys|
    ensures forall i :: 0 <= i < |d| ==> d[i] == (keys[i], values[i])
  {
    if keys == [] then [] else [(keys[0], values[0])] + Entries(keys[1..], values[1..])
  }

  /** The texts `handleSubmit` trims before sending. */
  predicate Trimmed(field: Field) {
    field == Name || field == Description || field == SortDescription || field == PriceRange
  }

  /** The form as `handleSubmit` reads it: the trimmed texts trimmed, every
      other field as it is. */
  function Normalise(f: Form): (g: Form)
    ensures IsTrimmed(g.name) && IsTrimmed(g.description) && IsTrimmed(g.sortDescription) && IsTrimmed(g.priceRange)
    ensures g.name == Trim(f.name) && g.description == Trim(f.description)
    ensures g.sortDescription == Trim(f.sortDescription) && g.priceRange == Trim(f.priceRange)
    ensures g == f.(name := g.name, description := g.description, sortDescription := g.sortDescription, priceRange := g.priceRange)
  {
    f.(name := Trim(f.name), description := Trim(f.description),
       sortDescription := Trim(f.sortDescription), priceRange := Trim(f.priceRange))
  }

  /** Normalising trims exactly the four trimmed texts, field by field. */
  lemma NormalisedField(f: Form, field: Field)
    ensures field == Name ==> Get(Normalise(f), field) == Trim(Get(f, field))
    ensures field == Description ==> Get(Normalise(f), field) == Trim(Get(f, field))
    ensures field == SortDescription ==> Get(Normalise(f), field) == Trim(Get(f, field))
    ensures field == PriceRange ==> Get(Normalise(f), field) == Trim(Get(f, field))
    ensures field == Category ==> Get(Normalise(f), field) == Get(f, field)
    ensures field == Subcategory ==> Get(Normalise(f), field) == Get(f, field)
    ensures field == MinOrderQuantity ==> Get(Normalise(f), field) == Get(f, field)
    ensures field == CountryOfOrigin ==> Get(Normalise(f), field) == Get(f, field)
    ensures field == Certifications ==> Get(Normalise(f), field) == Get(f, field)
  {
  }

  /** Where each text field sits in the payload. */
  function Position(field: Field): (k: nat)
    ensures k < |PayloadKeys|
  {
    match field
    case Name => 0
    case Description => 1
    case SortDescription => 2
    case Category => 3
    case Subcategory => 4
    case PriceRange => 5
    case CountryOfOrigin => 7
    case Certifications => 9
    case MinOrderQuantity => 6
  }

  /** The document built from an already normalised form. */
  function PayloadOf(g: Form): (d: Document)
    ensures |d| == |PayloadKeys| && forall i :: 0 <= i < |d| ==> d[i].0 == PayloadKeys[i]
  {
    Entries(PayloadKeys, [
      Str(g.name), Str(g.description), Str(g.sortDescription), Str(g.category), Str(g.subcategory),
      Str(g.priceRange), MinOrderValue(g.minOrderQuantity), Str(g.countryOfOrigin),
      StrList(g.tags), Str(g.certifications), StrList(g.images)])
  }

  /** The payload `handleSubmit` sends. */
  function Payload(f: Form): (d: Document)
    ensures |d| == |PayloadKeys| && forall i :: 0 <= i < |d| ==> d[i].0 == PayloadKeys[i]
  {
    PayloadOf(Normalise(f))
  }

  /** Each field is sent under its own name: every text but the quantity as
      a string, the quantity through `MinOrderValue`, and the tag and image
      lists as lists. */
  lemma PayloadCarriesFields(g: Form)
    ensures forall field :: field != MinOrderQuantity ==> PayloadOf(g)[Position(field)].1 == Str(Get(g, field))
    ensures PayloadOf(g)[Position(MinOrderQuantity)].1 == MinOrderValue(g.minOrderQuantity)
    ensures PayloadOf(g)[8].1 == StrList(g.tags) && PayloadOf(g)[10].1 == StrList(g.images)
  {
    var values := [
      Str(g.name), Str(g.description), Str(g.sortDescription), Str(g.category), Str(g.subcategory),
      Str(g.priceRange), MinOrderValue(g.minOrderQuantity), Str(g.countryOfOrigin),
      StrList(g.tags), Str(g.certifications), StrList(g.images)];
    var d := PayloadOf(g);
    assert forall i :: 0 <= i < |values| ==> d[i].1 == values[i];
    forall field | field != MinOrderQuantity
      ensures d[Position(field)].1 == Str(Get(g, field))
    {
      assert d[Position(field)].1 == values[Position(field)];
    }
  }

  /** The four trimmed texts are sent with the surrounding whitespace removed;
      every other field is sent exactly as the form holds it. */
  lemma PayloadTrimsText(f: Form, field: Field)
    requires field != MinOrderQuantity
    ensures Trimmed(field) ==> Payload(f)[Position(field)].1 == Str(Trim(Get(f, field)))
    ensures !Trimmed(field) ==> Payload(f)[Position(field)].1 == Str(Get(f, field))
    ensures Payload(f)[Position(MinOrderQuantity)].1 == MinOrderValue(f.minOrderQuantity)
    ensures Payload(f)[8].1 == StrList(f.tags) && Payload(f)[10].1 == StrList(f.images)
  {
    NormalisedField(f, field);
    PayloadCarriesFields(Normalise(f));
  }

  /** A trimmed field is sent as it is typed when it has no whitespace at
      either end. */
  lemma PayloadKeepsTrimmedText(f: Form, field: Field)
    requires Trimmed(field) && IsTrimmed(Get(f, field))
    ensures Payload(f)[Position(field)].1 == Str(Get(f, field))
  {
    PayloadTrimsText(f, field);
    TrimOfTrimmed(Get(f, field));
  }

  /** Whitespace typed around a trimmed field never reaches the server: the
      payload is the same with or without it. */
  lemma PayloadIgnoresPadding(f: Form, field: Field, a: string, b: string)
    requires Trimmed(field) && AllWhitespace(a) && AllWhitespace(b)
    ensures Payload(HandleInputChange(f, field, a + Get(f, field) + b)) == Payload(f)
  {
    TrimIgnoresPadding(a, Get(f, field), b);
  }

  /** The quantity text the form shows for a stored quantity is sent back
      as that quantity while `toString` writes it in plain decimal; from
      `ExponentThreshold` on only its leading digit comes back. */
  lemma QuantityRoundTrip(quantity: Option<int>)
    ensures quantity.None? ==> MinOrderValue("") == Undefined
    ensures quantity.Some? && -(ExponentThreshold as int) < quantity.value < ExponentThreshold ==>
              MinOrderValue(IntToString(quantity.value)) == Num(quantity.value)
    ensures quantity.Some? && quantity.value >= ExponentThreshold ==>
              MinOrderValue(IntToString(quantity.value)) == Num(LeadingDigit(quantity.value))
    ensures quantity.Some? && quantity.value <= -(ExponentThreshold as int) ==>
              MinOrderValue(IntToString(quantity.value)) == Num(0 - LeadingDigit(-quantity.value))
  {
    if quantity.Some? {
      var text := IntToString(quantity.value);
      assert MinOrderValue(text) == ParseInt(text);
      ParseIntOfIntToString(quantity.value);
    }
  }

  /** Editing a stored product and saving it sends its minimum order quantity
      back unchanged while it is below `ExponentThreshold` in magnitude: the
      form shows it as text and the payload parses that text again. A larger
      quantity comes back as a single digit, so it is not preserved. */
  lemma LoadedQuantitySurvivesSubmit(product: Product)
    ensures var sent := Payload(LoadProduct(product))[Position(MinOrderQuantity)].1;
            var q := product.minOrderQuantity;
            && (q.Some? && -(ExponentThreshold as int) < q.value < ExponentThreshold ==> sent == Num(q.value))
            && (q.Some? && (q.value >= ExponentThreshold || q.value <= -(ExponentThreshold as int)) ==>
                  sent.Num? && -10 < sent.n < 10 && sent != Num(q.value))
            && (q.None? ==> sent == Undefined)
  {
    var f := LoadProduct(product);
    PayloadQuantity(f);
    QuantityRoundTrip(product.minOrderQuantity);
  }

  /** The quantity is sent as `MinOrderValue` reads the form's text. */
  lemma PayloadQuantity(f: Form)
    ensures Payload(f)[Position(MinOrderQuantity)].1 == MinOrderValue(f.minOrderQuantity)
  {
    PayloadCarriesFields(Normalise(f));
  }

  /** Where a valid form goes: an update of the product in the route, or a
      create when the route has no (non-empty) id. */
  datatype Target = UpdateTarget(id: string) | CreateTarget

  function Dispatch(routeId: Option<string>): (t: Target)
    ensures t.UpdateTarget? <==> routeId.Some? && routeId.value != ""
    ensures t.UpdateTarget? ==> t.id == routeId.value
  {
    if routeId.Some? && routeId.value != "" then UpdateTarget(routeId.value) else CreateTarget
  }

  /** How a submit ends: a check failed, the server confirmed the save, the
      server answered without confirming, or the call threw. */
  datatype SubmitOutcome = Invalid(check: Check) | Saved | NotConfirmed | Failed(error: ApiError)

  datatype Submission = Submission(client: Client, sent: seq<HttpRequest>, outcome: SubmitOutcome)

  /** The save of a valid form: the payload goes to `updateProduct` or
      `createProduct`, and a body reporting success counts as saved. */
  function Save<D>(payload: Document, routeId: Option<string>, c: Client, probe: Probe, response: HttpResponse<D>): (r: Submission)
    ensures !r.outcome.Invalid? && |r.sent| <= 1
    ensures r.client == CheckAvailability(c, probe).client
    ensures r.outcome == Saved <==> |r.sent| == 1 && Outcome(response).Ok? && Outcome(response).value.Succeeded()
    ensures |r.sent| == 1 <==> CheckAvailability(c, probe).available
    ensures !CheckAvailability(c, probe).available ==>
              r.outcome == Failed(BackendUnavailable(
                if Dispatch(routeId).CreateTarget? then CreateUnavailableMessage else UnavailableMessage))
    ensures CheckAvailability(c, probe).available && Outcome(response).Thrown? ==>
              r.outcome == Failed(Outcome(response).error)
    ensures CheckAvailability(c, probe).available && Outcome(response).Ok? && !Outcome(response).value.Succeeded() ==>
              r.outcome == NotConfirmed
    ensures |r.sent| == 1 && Dispatch(routeId).UpdateTarget? ==>
              r.sent[0].verb == Put && r.sent[0].endpoint == "/products/" + routeId.value
              && r.sent[0].body == JsonBody(payload)
    ensures |r.sent| == 1 && Dispatch(routeId).CreateTarget? ==>
              r.sent[0].verb == Post && r.sent[0].endpoint == "/products/create-new"
              && r.sent[0].body == FormBody(TextParts(payload))
              && r.sent[0].headers == map[AuthorizationHeader := Bearer(TokenText(c.token))]
  {
    var call := match Dispatch(routeId)
      case UpdateTarget(id) => UpdateProduct(c, probe, id, payload, response)
      case CreateTarget => CreateProduct(c, probe, payload, None, response);
    assert Dispatch(routeId).CreateTarget? ==> ProductParts(payload, None) == TextParts(payload);
    var outcome := match call.outcome
      case Ok(body) => if body.Succeeded() then Saved else NotConfirmed
      case Thrown(e) => Failed(e);
    Submission(call.client, call.sent, outcome)
  }

  /** `handleSubmit`: nothing is sent and nothing changes unless every check
      passes; then the trimmed payload is saved. */
  function Submit<D>(f: Form, routeId: Option<string>, c: Client, probe: Probe, response: HttpResponse<D>): (r: Submission)
    ensures Validate(f).Some? <==> r.outcome.Invalid?
    ensures Validate(f).Some? ==> r == Submission(c, [], Invalid(Validate(f).value))
    ensures Validate(f).None? ==> r == Save(Payload(f), routeId, c, probe, response)
  {
    match Validate(f)
    case Some(check) => Submission(c, [], Invalid(check))
    case None => Save(Payload(f), routeId, c, probe, response)
  }
}

=== FILE: product_store.dfy ===
/** The product store shared by the pages: the catalogue, the caller's own
    products and the category list, plus one `loading` flag, kept in step with
    the server by replacing a cache wholesale from a fetch. Every store method
    runs as one atomic step over the client; the probe outcome and the
    responses of the requests it makes are parameters. */
module ProductStore {
  import opened Js
  import opened ApiClient

  /** The store's state. `myProducts` and `categories` become `None`
      (`undefined`) when a successful response lacks the field they are read
      from. */
  datatype Store = Store(
    products: seq<Product>,
    myProducts: Option<seq<Product>>,
    categories: Option<seq<string>>,
    loading: bool)

  const Initial := Store([], Some([]), Some([]), false)

  /** One store method: the store and client afterwards, the requests sent in
      order, and what the method returned or threw. */
  datatype Step<R> = Step(store: Store, client: Client, sent: seq<HttpRequest>, outcome: Result<R, ApiError>)

  /** Drops the response body of a call, keeping whether it threw. */
  function Settled<D>(outcome: Result<Body<D>, ApiError>): (r: Result<(), ApiError>)
    ensures r.Ok? <==> outcome.Ok?
    ensures r.Thrown? ==> r.error == outcome.error
  {
    match outcome
    case Ok(_) => Ok(())
    case Thrown(e) => Thrown(e)
  }

  /** The list a product-list response carries, looked for the way
      `fetchProducts` does: a bare array, else `data` on success, else
      `products` on success; `None` when there is none of these. */
  function ProductList(body: Body<seq<Product>>): (r: Option<seq<Product>>)
    ensures body.Bare? ==> r == Some(body.items)
    ensures !body.Bare? && !body.Succeeded() ==> r.None?
    ensures body.Succeeded() && body.envelope.data.Some? ==> r == body.envelope.data
    ensures body.Succeeded() && body.envelope.data.None? ==> r == body.envelope.products
  {
    match body
    case Bare(items) => Some(items)
    case Wrapped(envelope) =>
      if envelope.success && envelope.data.Some? then envelope.data
      else if envelope.success && envelope.products.Some? then envelope.products
      else None
  }

  /** `fetchProducts`: replaces the catalogue with the list the response
      carries, if any; `loading` is false afterwards whether it returned or
      threw, and the other caches are untouched. */
  function FetchProducts(s: Store, c: Client, probe: Probe, response: HttpResponse<seq<Product>>): (r: Step<()>)
    ensures !r.store.loading
    ensures r.store.myProducts == s.myProducts && r.store.categories == s.categories
    ensures r.client == CheckAvailability(c, probe).client && |r.sent| <= 1
    ensures r.outcome.Ok? <==> CheckAvailability(c, probe).available && Outcome(response).Ok?
    ensures r.outcome.Ok? ==> r.store.products == ProductList(response.body).GetOr(s.products)
    ensures r.outcome.Thrown? ==> r.store.products == s.products
  {
    var call := GetProducts(c, probe, response);
    var products := match call.outcome
      case Ok(body) => ProductList(body).GetOr(s.products)
      case Thrown(_) => s.products;
    Step(s.(products := products, loading := false), call.client, call.sent, Settled(call.outcome))
  }

  /** `fetchProductById`: the response's `data` when it has one, `null`
      otherwise and on every error; it never throws and changes no cache. */
  function FetchProductById(s: Store, c: Client, probe: Probe, id: string, response: HttpResponse<Product>): (r: Step<Option<Product>>)
    ensures r.outcome.Ok?
    ensures r.store == s.(loading := false)
    ensures r.client == CheckAvailability(c, probe).client && |r.sent| <= 1
    ensures r.outcome.value.Some? <==>
              && CheckAvailability(c, probe).available
              && response.Received? && IsOkStatus(response.status)
              && response.body.Wrapped? && response.body.envelope.data.Some?
    ensures r.outcome.value.Some? ==> r.outcome.value == response.body.envelope.data
  {
    var call := GetProduct(c, probe, id, response);
    var found := match call.outcome
      case Ok(body) =>
        if body.Succeeded() && body.Wrapped? && body.envelope.data.Some? then body.envelope.data
        else if body.Wrapped? && body.envelope.data.Some? then body.envelope.data
        else None
      case Thrown(_) => None;
    Step(s.(loading := false), call.client, call.sent, Ok(found))
  }

  /** `fetchMyProducts`: on a successful response the cache takes its
      `products` field, even when that is missing; otherwise it is kept.
      `loading` is false afterwards whether it returned or threw. */
  function FetchMyProducts(s: Store, c: Client, probe: Probe, response: HttpResponse<seq<Product>>): (r: Step<()>)
    ensures !r.store.loading
    ensures r.store.products == s.products && r.store.categories == s.categories
    ensures r.client == CheckAvailability(c, probe).client && |r.sent| <= 1
    ensures r.outcome.Ok? <==> CheckAvailability(c, probe).available && Outcome(response).Ok?
    ensures r.outcome.Ok? && response.body.Succeeded() ==> r.store.myProducts == response.body.envelope.products
    ensures !(r.outcome.Ok? && response.body.Succeeded()) ==> r.store.myProducts == s.myProducts
  {
    var call := GetMyProducts(c, probe, response);
    var mine := match call.outcome
      case Ok(body) => if body.Succeeded() then body.envelope.products else s.myProducts
      case Thrown(_) => s.myProducts;
    Step(s.(myProducts := mine, loading := false), call.client, call.sent, Settled(call.outcome))
  }

  /** `fetchCategories`: on a successful response the list takes its
      `categories` field; errors are swallowed, and `loading` is not touched. */
  function FetchCategories(s: Store, c: Client, probe: Probe, response: HttpResponse<seq<string>>): (r: Step<()>)
    ensures r.outcome.Ok?
    ensures r.store.products == s.products && r.store.myProducts == s.myProducts
    ensures r.store.loading == s.loading
    ensures r.client == CheckAvailability(c, probe).client && |r.sent| <= 1
    ensures CheckAvailability(c, probe).available && Outcome(response).Ok? && response.body.Succeeded() ==>
              r.store.categories == response.body.envelope.categories
    ensures !(CheckAvailability(c, probe).available && Outcome(response).Ok? && response.body.Succeeded()) ==>
              r.store.categories == s.categories
  {
    var call := GetCategories(c, probe, response);
    var categories := match call.outcome
      case Ok(body) => if body.Succeeded() then body.envelope.categories else s.categories
      case Thrown(_) => s.categories;
    Step(s.(categories := categories), call.client, call.sent, Ok(()))
  }

  /** The mutation returned and its body reports success. */
  predicate Confirmed<D>(call: Call<D>) {
    call.outcome.Ok? && call.outcome.value.Succeeded()
  }

  /** What every mutation does with its call's result: a thrown call is
      rethrown, an unconfirmed one ends the method, and a confirmed one
      refetches the caller's products and then the catalogue. */
  function AfterMutation<D>(s: Store, call: Call<D>, probe: Probe,
                            mine: HttpResponse<seq<Product>>, all: HttpResponse<seq<Product>>): (r: Step<()>)
    requires call.outcome.Ok? ==> call.client.available == Some(true)
    ensures |r.sent| >= |call.sent| && r.sent[..|call.sent|] == call.sent
    ensures !Confirmed(call) ==> r.store == s && r.client == call.client && r.sent == call.sent
    ensures call.outcome.Thrown? ==> r.outcome == Settled(call.outcome)
    ensures call.outcome.Ok? && !Confirmed(call) ==> r.outcome == Ok(())
    ensures Confirmed(call) ==>
              && !r.store.loading
              && r.store.categories == s.categories
              && |r.sent| > |call.sent| && r.sent[..|call.sent|] == call.sent
              && r.sent[|call.sent|].endpoint == MyProductsEndpoint
    ensures Confirmed(call) && r.outcome.Ok? ==>
              && |r.sent| == |call.sent| + 2
              && r.sent[|call.sent| + 1].endpoint == "/products"
    ensures Confirmed(call) ==> (r.outcome.Ok? <==> Outcome(mine).Ok? && Outcome(all).Ok?)
    ensures Confirmed(call) && Outcome(mine).Ok? && mine.body.Succeeded() ==>
              r.store.myProducts == mine.body.envelope.products
    ensures Confirmed(call) && !(Outcome(mine).Ok? && mine.body.Succeeded()) ==>
              r.store.myProducts == s.myProducts
    ensures Confirmed(call) && Outcome(mine).Thrown? ==>
              r.store.products == s.products && r.outcome == Settled(Outcome(mine))
    ensures Confirmed(call) && Outcome(mine).Ok? && Outcome(all).Ok? ==>
              r.store.products == ProductList(all.body).GetOr(s.products)
    ensures Confirmed(call) && Outcome(mine).Ok? && Outcome(all).Thrown? ==>
              r.store.products == s.products && r.outcome == Settled(Outcome(all))
  {
    match call.outcome
    case Thrown(e) => Step(s, call.client, call.sent, Thrown(e))
    case Ok(body) =>
      if !body.Succeeded() then Step(s, call.client, call.sent, Ok(()))
      else
        var first := FetchMyProducts(s, call.client, probe, mine);
        if first.outcome.Thrown? then first.(sent := call.sent + first.sent)
        else
          var second := FetchProducts(first.store, first.client, probe, all);
          assert (call.sent + first.sent + second.sent)[..|call.sent|] == call.sent;
          second.(sent := call.sent + first.sent + second.sent)
  }

  /** `createProduct`: the multipart create, then the refetches if confirmed. */
  function CreateProduct<D>(s: Store, c: Client, probe: Probe, fields: Document, images: Option<seq<File>>,
                            response: HttpResponse<D>, mine: HttpResponse<seq<Product>>,
                            all: HttpResponse<seq<Product>>): (r: Step<()>)
    ensures !s.loading ==> !r.store.loading
    ensures r.store.categories == s.categories
    ensures |r.sent| <= 3
    ensures |r.sent| > 0 ==> r.sent[0].verb == Post && r.sent[0].endpoint == "/products/create-new"
  {
    AfterMutation(s, ApiClient.CreateProduct(c, probe, fields, images, response), probe, mine, all)
  }

  /** `updateProduct`: the JSON update, then the refetches if confirmed. */
  function UpdateProduct<D>(s: Store, c: Client, probe: Probe, id: string, fields: Document,
                            response: HttpResponse<D>, mine: HttpResponse<seq<Product>>,
                            all: HttpResponse<seq<Product>>): (r: Step<()>)
    ensures !s.loading ==> !r.store.loading
    ensures r.store.categories == s.categories
    ensures |r.sent| <= 3
    ensures |r.sent| > 0 ==> r.sent[0].verb == Put && r.sent[0].endpoint == "/products/" + id && r.sent[0].body == JsonBody(fields)
  {
    AfterMutation(s, ApiClient.UpdateProduct(c, probe, id, fields, response), probe, mine, all)
  }

  /** `deleteProduct`: the delete, then the refetches if confirmed. */
  function DeleteProduct<D>(s: Store, c: Client, probe: Probe, id: string,
                            response: HttpResponse<D>, mine: HttpResponse<seq<Product>>,
                            all: HttpResponse<seq<Product>>): (r: Step<()>)
    ensures !s.loading ==> !r.store.loading
    ensures r.store.categories == s.categories
    ensures |r.sent| <= 3
    ensures |r.sent| > 0 ==> r.sent[0].verb == Delete && r.sent[0].endpoint == "/products/" + id
  {
    AfterMutation(s, ApiClient.DeleteProduct(c, probe, id, response), probe, mine, all)
  }

  /** A delete the server does not confirm leaves both product caches as they
      were and sends nothing after the delete itself. */
  lemma UnconfirmedDeleteKeepsCaches<D>(s: Store, c: Client, probe: Probe, id: string,
                                        response: HttpResponse<D>, mine: HttpResponse<seq<Product>>,
                                        all: HttpResponse<seq<Product>>)
    requires !(Outcome(response).Ok? && Outcome(response).value.Succeeded())
    ensures var r := DeleteProduct(s, c, probe, id, response, mine, all);
            r.store == s && |r.sent| <= 1
  {
  }

  /** A confirmed update followed by two successful refetches leaves the
      store holding exactly what the refetches returned. */
  lemma ConfirmedUpdateResynchronises<D>(s: Store, c: Client, probe: Probe, id: string, fields: Document,
                                         response: HttpResponse<D>,
                                         mine: HttpResponse<seq<Product>>, all: HttpResponse<seq<Product>>)
    requires CheckAvailability(c, probe).available
    requires Outcome(response).Ok? && Outcome(response).value.Succeeded()
    requires Outcome(mine).Ok? && mine.body.Succeeded()
    requires Outcome(all).Ok? && ProductList(all.body).Some?
    ensures var r := UpdateProduct(s, c, probe, id, fields, response, mine, all);
            && r.outcome == Ok(())
            && r.store == Store(ProductList(all.body).value, mine.body.envelope.products, s.categories, false)
            && |r.sent| == 3
            && r.sent[0].endpoint == "/products/" + id
            && r.sent[1].endpoint == MyProductsEndpoint
            && r.sent[2].endpoint == "/products"
  {
  }

  /** A confirmed delete whose first refetch throws rethrows that error and
      keeps the catalogue; only the caller's products were asked for. */
  lemma ConfirmedDeleteWithFailedRefetch<D>(s: Store, c: Client, probe: Probe, id: string,
                                            response: HttpResponse<D>,
                                            mine: HttpResponse<seq<Product>>, all: HttpResponse<seq<Product>>)
    requires CheckAvailability(c, probe).available
    requires Outcome(response).Ok? && Outcome(response).value.Succeeded()
    requires Outcome(mine).Thrown?
    ensures var r := DeleteProduct(s, c, probe, id, response, mine, all);
            && r.outcome == Thrown(Outcome(mine).error)
            && r.store == s.(loading := false)
            && |r.sent| == 2
  {
  }

  /** A confirmed create followed by two successful refetches leaves the
      store holding exactly what the refetches returned. */
  lemma ConfirmedCreateResynchronises<D>(s: Store, c: Client, probe: Probe, fields: Document,
                                         images: Option<seq<File>>, response: HttpResponse<D>,
                                         mine: HttpResponse<seq<Product>>, all: HttpResponse<seq<Product>>)
    requires CheckAvailability(c, probe).available
    requires Outcome(response).Ok? && Outcome(response).value.Succeeded()
    requires Outcome(mine).Ok? && mine.body.Succeeded()
    requires Outcome(all).Ok? && ProductList(all.body).Some?
    ensures var r := CreateProduct(s, c, probe, fields, images, response, mine, all);
            && r.outcome == Ok(())
            && r.store == Store(ProductList(all.body).value, mine.body.envelope.products, s.categories, false)
            && |r.sent| == 3
            && r.sent[0].endpoint == "/products/create-new"
            && r.sent[1].endpoint == MyProductsEndpoint
            && r.sent[2].endpoint == "/products"
  {
  }
}

=== FILE: products_page.dfy ===
/** The catalogue page: the two price sliders that keep a minimum gap
    between them, and the image shown on each product card. */
module ProductsPage {
  import opened Js
  import opened ApiClient

  /** The slider bounds and the gap the two handles keep. */
  const Floor := 0
  const Ceiling := 100000
  const Gap := 1000

  /** The selected price range. */
  datatype Range = Range(min: int, max: int)

  const Initial := Range(Floor, Ceiling)

  /** The range the sliders keep: inside the bounds, handles at least `Gap`
      apart. */
  predicate Valid(r: Range) {
    Floor <= r.min && r.min + Gap <= r.max <= Ceiling
  }

  /** A value a slider can report. */
  predicate InSlider(v: int) {
    Floor <= v <= Ceiling
  }

  function Min(a: int, b: int): (m: int)
    ensures m <= a && m <= b && (m == a || m == b)
  {
    if a <= b then a else b
  }

  function Max(a: int, b: int): (m: int)
    ensures m >= a && m >= b && (m == a || m == b)
  {
    if a >= b then a else b
  }

  /** The minimum handle moves to `v`, but never closer than `Gap` below the
      maximum; the maximum stays. */
  function SetMin(r: Range, v: int): (s: Range)
    ensures s.max == r.max
    ensures s.max - s.min >= Gap
    ensures s.min == v <==> v <= r.max - Gap
    ensures v > r.max - Gap ==> s.min == r.max - Gap
    ensures Valid(r) && InSlider(v) ==> Valid(s)
  {
    Range(Min(v, r.max - Gap), r.max)
  }

  /** The maximum handle moves to `v`, but never closer than `Gap` above the
      minimum; the minimum stays. */
  function SetMax(r: Range, v: int): (s: Range)
    ensures s.min == r.min
    ensures s.max - s.min >= Gap
    ensures s.max == v <==> v >= r.min + Gap
    ensures v < r.min + Gap ==> s.max == r.min + Gap
    ensures Valid(r) && InSlider(v) ==> Valid(s)
  {
    Range(r.min, Max(v, r.min + Gap))
  }

  /** A slider movement. */
  datatype Move = MoveMin(v: int) | MoveMax(v: int)

  function Apply(r: Range, m: Move): Range {
    match m
    case MoveMin(v) => SetMin(r, v)
    case MoveMax(v) => SetMax(r, v)
  }

  function ApplyAll(r: Range, moves: seq<Move>): Range
    decreases |moves|
  {
    if moves == [] then r else ApplyAll(Apply(r, moves[0]), moves[1..])
  }

  /** Any sequence of slider movements from the initial range, each
      reporting a value the slider can take, keeps the range valid. */
  lemma {:induction false} MovesKeepValid(r: Range, moves: seq<Move>)
    requires Valid(r)
    requires forall i :: 0 <= i < |moves| ==> InSlider(moves[i].v)
    ensures Valid(ApplyAll(r, moves))
    decreases |moves|
  {
    if moves != [] {
      MovesKeepValid(Apply(r, moves[0]), moves[1..]);
    }
  }

  lemma InitialIsValid()
    ensures Valid(Initial)
  {
  }

  /** A handle pushed against the other one stops `Gap` away from it and
      comes back to where it is asked once there is room. */
  lemma ClampedHandleRecovers(r: Range, v: int, w: int)
    requires Valid(r) && InSlider(v) && v > r.max - Gap && w <= r.max - Gap
    ensures SetMin(r, v).min == r.max - Gap
    ensures SetMin(SetMin(r, v), w) == Range(w, r.max)
  {
  }

  /** The placeholder shown for a product without images. */
  const Placeholder := "https://via.placeholder.com/300"

  /** A product card's image, given the product's `images`: the backend
      address followed by the first image path, or the placeholder when the
      product has no images (missing or empty). */
  function CardImage(base: string, images: Option<seq<string>>): (url: string)
    ensures images.Some? && |images.value| > 0 ==>
              |url| >= |base| && url[..|base|] == base && url[|base|..] == images.value[0]
    ensures !(images.Some? && |images.value| > 0) ==> url == Placeholder
  {
    if images.Some? && |images.value| > 0 then base + images.value[0] else Placeholder
  }
}

=== FILE: tags.dfy ===
/** The tag list of the product-authoring forms. Both forms keep the same
    rules: a tag is added trimmed, only when it is non-empty and not already
    present, and removing a tag drops every entry equal to it. */
module Tags {
  import opened Js

  /** An entry as the form stores it: not empty, no whitespace at either end. */
  predicate IsTag(t: string) {
    t != [] && IsTrimmed(t)
  }

  /** What the tag handlers keep: every entry is a tag and no entry occurs twice. */
  predicate WellFormed(tags: seq<string>) {
    && (forall i :: 0 <= i < |tags| ==> IsTag(tags[i]))
    && (forall i, j :: 0 <= i < j < |tags| ==> tags[i] != tags[j])
  }

  /** The committed tags and the text box they are typed into. */
  datatype TagInput = TagInput(tags: seq<string>, current: string)

  /** The text box's content would be accepted as a new tag. */
  predicate Accepts(s: TagInput) {
    Trim(s.current) != [] && Trim(s.current) !in s.tags
  }

  /** `addTag`: commit the trimmed text box and clear it, or change nothing. */
  function AddTag(s: TagInput): (r: TagInput)
    ensures Accepts(s) ==> |r.tags| == |s.tags| + 1 && r.tags[..|s.tags|] == s.tags
    ensures Accepts(s) ==> r.tags[|s.tags|] == Trim(s.current) && r.current == ""
    ensures !Accepts(s) ==> r == s
    ensures WellFormed(s.tags) ==> WellFormed(r.tags)
  {
    var t := Trim(s.current);
    if t != [] && t !in s.tags then
      AppendTag(s.tags, t);
      TagInput(s.tags + [t], "")
    else
      s
  }

  /** A new tag appended to a well-formed list keeps it well formed. */
  lemma AppendTag(tags: seq<string>, t: string)
    requires IsTag(t) && t !in tags
    ensures WellFormed(tags) ==> WellFormed(tags + [t])
  {
  }

  /** In a well-formed list, the tag at position k occurs nowhere else. */
  lemma UniqueAt(tags: seq<string>, k: int)
    requires WellFormed(tags) && 0 <= k < |tags|
    ensures tags[k] !in tags[..k] && tags[k] !in tags[k + 1..]
  {
  }

  /** `removeTag`: the entries different from `t`, in their original order. */
  function RemoveTag(tags: seq<string>, t: string): (r: seq<string>)
    ensures forall x :: x in r <==> x in tags && x != t
    ensures |r| <= |tags|
    ensures WellFormed(tags) ==> WellFormed(r)
  {
    if tags == [] then []
    else if tags[0] == t then RemoveTag(tags[1..], t)
    else
      var rest := RemoveTag(tags[1..], t);
      assert WellFormed(tags) ==> WellFormed(tags[1..]) && tags[0] !in tags[1..];
      assert forall j :: 0 <= j < |rest| ==> rest[j] in rest;
      [tags[0]] + rest
  }

  /** The entries are exactly the non-empty strings `trim` leaves alone. */
  lemma IsTagIffTrimFixed(t: string)
    ensures IsTag(t) <==> t != [] && Trim(t) == t
  {
    if IsTag(t) {
      assert [] + t + [] == t;
      TrimOfPadded([], t, []);
    }
  }

  /** Whitespace-only text never becomes a tag. */
  lemma BlankIsRejected(s: TagInput)
    requires AllWhitespace(s.current)
    ensures AddTag(s) == s
  {
    TrimOfWhitespace(s.current);
  }

  /** No stored tag is blank. */
  lemma TagsAreNotBlank(tags: seq<string>, i: int)
    requires WellFormed(tags) && 0 <= i < |tags|
    ensures !AllWhitespace(tags[i])
  {
    if AllWhitespace(tags[i]) {
      TrimOfWhitespace(tags[i]);
    }
  }

  /** Removal distributes over concatenation: with the empty and one-entry
      cases this fixes the result, order included, on every list. */
  lemma {:induction false} RemoveTagAppend(a: seq<string>, b: seq<string>, t: string)
    ensures RemoveTag(a + b, t) == RemoveTag(a, t) + RemoveTag(b, t)
  {
    if a == [] {
      assert a + b == b;
    } else {
      assert (a + b)[0] == a[0];
      assert (a + b)[1..] == a[1..] + b;
      RemoveTagAppend(a[1..], b, t);
    }
  }

  /** Removing an absent tag changes nothing. */
  lemma {:induction false} RemoveAbsentTag(tags: seq<string>, t: string)
    requires t !in tags
    ensures RemoveTag(tags, t) == tags
  {
    if tags != [] {
      assert tags == [tags[0]] + tags[1..];
      RemoveAbsentTag(tags[1..], t);
    }
  }

  /** In a well-formed list a tag sits at one position, and removing it
      closes the gap without reordering the others. */
  lemma RemoveTagAt(tags: seq<string>, k: int)
    requires WellFormed(tags) && 0 <= k < |tags|
    ensures RemoveTag(tags, tags[k]) == tags[..k] + tags[k + 1..]
  {
    UniqueAt(tags, k);
    RemoveTagSplit(tags, k);
  }

  lemma RemoveTagSplit(tags: seq<string>, k: int)
    requires 0 <= k < |tags| && tags[k] !in tags[..k] && tags[k] !in tags[k + 1..]
    ensures RemoveTag(tags, tags[k]) == tags[..k] + tags[k + 1..]
  {
    var before, t, after := tags[..k], tags[k], tags[k + 1..];
    assert tags == before + ([t] + after) by {
      assert tags == tags[..k] + tags[k..];
      assert tags[k..] == [t] + after;
    }
    RemoveTagAround(tags, before, t, after);
  }

  /** Removing a tag that occurs once, between entries that differ from it,
      leaves those entries in order. */
  lemma RemoveTagAround(tags: seq<string>, before: seq<string>, t: string, after: seq<string>)
    requires tags == before + ([t] + after) && t !in before && t !in after
    ensures RemoveTag(tags, t) == before + after
  {
    RemoveTagAppend(before, [t] + after, t);
    RemoveTagAppend([t], after, t);
    assert RemoveTag([t], t) == [];
    RemoveAbsentTag(before, t);
    RemoveAbsentTag(after, t);
  }

  /** Removing the tag just added restores the list: `removeTag` undoes an
      accepted `addTag`. */
  lemma RemoveUndoesAdd(s: TagInput)
    requires Accepts(s)
    ensures RemoveTag(AddTag(s).tags, Trim(s.current)) == s.tags
  {
    var t := Trim(s.current);
    RemoveTagAppend(s.tags, [t], t);
    RemoveAbsentTag(s.tags, t);
  }
}
